=== FILE: README.md ===
# gettext PO/MO engine of I18N.php, modelled in Dafny

`I18N.php` carries its own implementation of the two GNU gettext file
formats. Text catalogs (`.po`) are parsed by `_poParser`, which relies on
`_poCleanHelper` to turn each quoted field into the string it denotes. The
resulting catalog is written as a binary machine object (`.mo`) by
`_moWrite`, and `_moRead` / `_moReadData` read such a file back into the
translation cache. This project models that pipeline as pure functions and
proves what each stage promises and what the writer/reader pair does
together.

- `Text` (text.dfy): the PHP string primitives the code is built from:
  `explode`, `implode`, `str_replace`, `strpos`, `trim`, and the byte order
  `ksort(..., SORT_STRING)` sorts by.
- `Bytes` (bytes.dfy): bytes, 32-bit words packed little- or big-endian
  (`pack`/`unpack` with `V`, `N`, `I`, `i`), and PHP strings as byte strings.
- `Catalogs` (catalog.dfy): the catalog entry (context, msgid, plural msgid,
  translated forms) and the PHP array keyed by msgid.
- `Cleaner` (cleaner.dfy): `_poCleanHelper` on one value. Quote stripping,
  seam removal between continuation lines, and `$` protection are modelled.
  The `eval` of a double-quoted literal becomes a closed escape decoder,
  `Unescape`. It fails on every quote that no backslash escapes. That
  covers every literal that would not parse, except those whose error lies
  in an interpolated variable (see "Variable interpolation" under
  "## Left out"), and, deliberately, a few that would parse (`a" . "b`).
- `PoParser` (po_parser.dfy): line preparation, the line-by-line state
  machine (`Step`, `Scan`), the end-of-input rule, cleaning, and keying by
  msgid.
- `MoWriter` (mo_writer.dfy): sorting, key and value composition, the packing
  loop, the header, the index tables and the file.
- `MoReader` (mo_reader.dfy): size and magic checks, byte-order detection,
  the tables, and the loop that fills the cache. That loop carries
  `$original` from one entry to the next, as the PHP does.
- `RoundTrip` (roundtrip.dfy): the layout of a written file, and what the
  reader makes of it.

Where the model follows the code rather than its comments or the usual
reading of it:
- A msgstr form that fails to clean does not fail the parse. Line 218
  compares the whole field with `false`, and an array of forms never is
  `false`. Under PHP 5, where a failed `eval` returns `false`, the failed
  form is stored as `false`, which `implode` writes as the empty string.
  The model follows PHP 5 here; see "## Left out" for later versions.
- The writer sorts by the catalog key, the msgid, and not by the composed
  key with context and plural.
- `#,` recomputes the fuzzy flag before the pending entry is closed. So the
  flag line of the NEXT entry decides whether the current one is kept.
- At end of input the pending entry is kept whenever msgstr is the active
  field, fuzzy or not.
- When a key has length 0, only `$original[0]` is overwritten. The remaining
  parts of the previous entry's key stay in place.

## Model

| member | source | states |
|---|---|---|
| `Text.Split` | I18N.php:127 | `explode` yields at least one piece, no piece contains the separator, and imploding the pieces gives the input back |
| `Text.SplitJoin` | I18N.php:386 | exploding at NUL recovers exactly the forms the writer imploded at NUL (line 264), provided no form contains NUL |
| `Text.Trim` | I18N.php:136 | the trimmed line is the part of the line that starts right after its leading blanks and is followed only by blanks, and it neither starts nor ends with a blank |
| `Text.TrimUntouched` | I18N.php:136 | a line that neither starts nor ends with a blank is left as it is |
| `Text.BelowTotal` | I18N.php:240 | any two msgids are comparable in the byte order `ksort` uses |
| `Text.BelowAntisymmetric` | I18N.php:240 | two msgids that each sort no later than the other are equal |
| `Text.BelowTransitive` | I18N.php:240 | the sort order is transitive |
| `Bytes.DecodeEncode` | I18N.php:409-415 | `unpack('V')` / `unpack('N')` read back the word `pack` wrote in the same byte order, modulo 2^32 |
| `Bytes.ReadPackedWord` | I18N.php:308-310 | the j-th word packed at the start of a file is read back at byte 4j, whatever follows it |
| `Catalogs.Put` | I18N.php:222 | storing an entry under its msgid makes that msgid find it, leaves every other msgid's entry as it was, and keeps msgids distinct |
| `PoParser.Normalize` | I18N.php:126 | after CRLF and CR are turned into LF, no CR is left, and text without CR is left as it is |
| `PoParser.NormalizeReadsLineEnds` | I18N.php:126 | the two `str_replace` passes agree with reading the text one character at a time, CRLF and a lone CR each becoming one LF |
| `PoParser.NormalizeCrLf` | I18N.php:126 | a CRLF becomes exactly one LF, and the text on either side is normalised on its own |
| `PoParser.NormalizeLoneCr` | I18N.php:126 | a CR that no LF follows becomes one LF, and the text on either side is normalised on its own |
| `PoParser.KeepLines` | I18N.php:135-139 | every line the state machine sees is non-empty and has no blank at either end, and there are no more of them than raw lines |
| `PoParser.KeepLinesOne` | I18N.php:135-139 | a single raw line is dropped when it trims to nothing and is otherwise kept in trimmed form |
| `PoParser.KeepLinesAppend` | I18N.php:135-139 | lines are kept one at a time and in order: the lines kept from two runs of raw lines are those of the first run, then those of the second |
| `PoParser.PrepareJoin` | I18N.php:126-139 | lines that are non-empty, have no blank at either end and hold no line break, joined by LF, reach the state machine exactly as they were, in order |
| `PoParser.SplitKey` | I18N.php:140-150 | the key holds no space; for a line with a space, key, one space and data make up the line; a line without a space is all key with empty data |
| `PoParser.Step` | I18N.php:152-204 | a line is refused iff it is a continuation line while no field is active; otherwise the kept entries either stay as they are or gain exactly the pending entry, and only when that entry is complete |
| `PoParser.Scan` | I18N.php:135-205 | entries once kept are never taken back: the kept entries before the scan are a prefix of those after it |
| `PoParser.ScanFailsAt` | I18N.php:198-200 | a line refused part-way through makes the whole scan fail |
| `PoParser.Finish` | I18N.php:207-210 | at end of input the pending entry is appended iff msgstr is the active field; nothing else is added or removed |
| `PoParser.ContinuationExtends` | I18N.php:187-197 | a continuation line appends LF and the whole line to the active field, or to the last form under msgstr; nothing else in the scanner changes |
| `PoParser.OrphanContinuationFails` | I18N.php:198-200 | a continuation line met while no field is active makes the whole parse fail |
| `PoParser.FuzzyAfterCompleteEntry` | I18N.php:153-166 | `#, fuzzy` directly after a complete entry discards that entry and leaves the flag cleared |
| `PoParser.FuzzyEntryDropped` | I18N.php:153-166 | an entry preceded by a fuzzy flag line is dropped when the next delimiter is a plain comment |
| `PoParser.FuzzyEntryRescued` | I18N.php:153-166 | an entry preceded by a fuzzy flag line is kept when the next delimiter is a `#,` line without `fuzzy` |
| `PoParser.FuzzyLastEntryKept` | I18N.php:207-210 | the last entry of the file is kept even when flagged fuzzy |
| `PoParser.StepKeepsWellFormed` | I18N.php:152-204 | one line keeps the scanner invariant: the active field is present, a present msgstr has a form, every kept entry has msgid and a form |
| `PoParser.ScanKeepsWellFormed` | I18N.php:135-205 | the scanner invariant holds after any sequence of lines that scans |
| `PoParser.CleanPending` | I18N.php:215-221 | cleaning an entry succeeds exactly when its context, msgid and plural msgid all clean; each field then holds its cleaned value, a missing msgid the empty string, and msgstr one entry per form, a form that fails to clean becoming the empty string instead of failing the entry |
| `PoParser.CleanAll` | I18N.php:212-221 | cleaning the collected entries succeeds iff every entry cleans, and yields each entry cleaned, in order |
| `PoParser.Build` | I18N.php:222 | the catalog has distinct msgids, each msgid finds the last entry that carried it, and no entry is invented |
| `PoParser.Parse` | I18N.php:118-226 | every catalog the parser returns has distinct msgids and at least one translated form per entry |
| `PoParser.ParseSimpleEntry` | I18N.php:118-226 | a file of one `msgid "…"` line and one `msgstr "…"` line, each string PO-quoted, parses to the one entry holding those two strings |
| `PoParser.ParsePluralEntry` | I18N.php:118-226 | a file of a `msgid`, a `msgid_plural`, a `msgstr[0]` and a `msgstr[1]` line, each string PO-quoted, parses to the one entry holding the msgid, the plural msgid and both forms in the order of their lines |
| `Cleaner.Clean` | I18N.php:94-108 | a value with neither backslash nor quote cleans to itself, `$` included |
| `Cleaner.UnescapeProtected` | I18N.php:104-105 | text without backslash or quote survives `$` protection and decoding unchanged |
| `Cleaner.CleanQuoted` | I18N.php:101-105 | a value written as one PO-quoted string (quote, backslash and LF escaped) cleans back to the original string, `$` included |
| `Cleaner.CleanJoinsSegments` | I18N.php:101-105 | a value quoted over several continuation lines cleans to the concatenation of its segments |
| `Cleaner.UnescapeQuoted` | I18N.php:104-105 | decoding the `$`-protected, escaped text of any string gives that string |
| `Cleaner.HexEscapeEitherCase` | I18N.php:105 | one or two hexadecimal digits after `\x` or after `\X` decode to the character of that value, the two spellings alike, as PHP's double-quoted literals treat them |
| `Cleaner.UnescapeShrinks` | I18N.php:105 | a decoded literal is never longer than its source text |
| `Cleaner.UnescapePlain` | I18N.php:105 | text without backslash or quote decodes to itself |
| `Cleaner.UnescapeRejectsBareQuote` | I18N.php:105 | a quote that no backslash escapes makes the decoding fail: it ends the evaluated literal early, and the model rejects it even where the rest happens to parse |
| `MoWriter.SortByMsgid` | I18N.php:240 | the entries come out in ascending byte order of msgid and are a permutation of the catalog |
| `MoWriter.SortDistinct` | I18N.php:240 | sorting keeps msgids distinct |
| `MoWriter.Collect` | I18N.php:251-275 | the packing loop records, for entry i, key i's length without NUL and its offset (the room the earlier keys take with their NULs), and the key sits there followed by NUL; the values likewise |
| `MoWriter.CollectPacks` | I18N.php:272-274 | the key blob is every key NUL-terminated in order; the value blob likewise |
| `MoWriter.WriteMo` | I18N.php:237-313 | the file is 28 bytes of header, 16 per entry, and every key and value with its NUL |
| `MoReader.DetectOrder` | I18N.php:344-351 | the first word read little-endian selects little-endian for 0x950412DE and big-endian for 0xDE120495; anything else fails |
| `MoReader.ReadPairs` | I18N.php:369-372 | an index table is read iff it lies inside the file, and row i is the two words at 8i and 8i + 4 past its start |
| `MoReader.FetchAll` | I18N.php:374-386 | every string is fetched iff all lie inside the file; a length of 0 fetches nothing, any other length fetches that many bytes at the offset |
| `MoReader.SetFirstEmpty` | I18N.php:379-381 | an empty key overwrites only the first original; the other parts of the previous key survive |
| `MoReader.MarkPlurals` | I18N.php:389-392 | every plural msgid maps to the empty string, other keys keep their value, and no key is lost |
| `MoReader.Read` | I18N.php:326-404 | files under 10 bytes and files without either magic are refused, and the empty msgid never appears in the result |
| `MoReader.Absorb` | I18N.php:374-397 | one entry never removes a key from the cache and adds no key other than the parts of the current original |
| `MoReader.Run` | I18N.php:374-397 | the loop over all entries never removes a key from the cache |
| `MoReader.AbsorbPlural` | I18N.php:387-392 | a key and a value that both have several NUL-separated parts: the msgid gets all forms, each plural msgid the empty string, every other key keeps its value |
| `MoReader.AbsorbSingle` | I18N.php:393-395 | otherwise the first original gets the first form and every other key keeps its value |
| `MoReader.FirstForm` | I18N.php:386-394 | the first form is the value up to its first NUL, and the whole value when it has none |
| `MoWriter.KeyParts` | I18N.php:252-261 | a key splits at NUL into msgid and plural msgid again; a context is the prefix before EOT, and when it holds no NUL it travels in the first piece, as context, EOT, msgid |
| `MoWriter.ValueParts` | I18N.php:264 | the value splits at NUL into exactly the entry's forms |
| `RoundTrip.WrittenHeader` | I18N.php:299-306 | the header words are 0x950412DE, 0, N, 28, 28 + 8N, 0 and 28 + 16N |
| `RoundTrip.WrittenKeyPair` | I18N.php:266-310 | key pair i holds key i's length without NUL and its offset: 28 + 16N plus the room the earlier keys take |
| `RoundTrip.WrittenValuePair` | I18N.php:266-310 | value pair i holds value i's length and its offset: right after the last key's NUL, plus the room the earlier values take |
| `RoundTrip.WrittenStrings` | I18N.php:312-313 | past the two tables come every key NUL-terminated in msgid order, then every value likewise |
| `RoundTrip.HeaderRead` | I18N.php:342-366 | the reader accepts a written file, detects the byte order it was written in, and reads the count and both table positions the writer put there |
| `RoundTrip.KeyTableRead` | I18N.php:369-370 | the key table read back is the writer's (length, offset) list |
| `RoundTrip.ValueTableRead` | I18N.php:371-372 | the value table read back is the writer's (length, offset) list |
| `RoundTrip.StringsRead` | I18N.php:374-386 | every key and value is fetched from where the writer put it, the empty ones skipped |
| `RoundTrip.ReadWritten` | I18N.php:237-404 | reading a written file replays the writer's entries in msgid order through the reader's loop, whatever byte order was used |
| `RoundTrip.ByteOrderIrrelevant` | I18N.php:344-351 | a big-endian file reads back to the same cache as the little-endian one |
| `RoundTrip.AbsorbSimple` | I18N.php:393-395 | an entry without context or plural stores its translation under its msgid, unless the translation is empty |
| `RoundTrip.SimpleRoundTrip` | I18N.php:237-404 | for distinct msgids without context, plural or NUL, the file reads back to exactly msgid ↦ translation; empty translations are skipped, and no other key appears |
| `RoundTrip.PluralRoundTrip` | I18N.php:237-404 | a plural entry reads back as msgid ↦ all its forms and plural msgid ↦ the empty string |

## Left out

- File I/O. `is_readable`, `file_get_contents`, `file_put_contents`,
  `stat`, `fopen`, `fseek` and `fread` are replaced by the file's text or
  bytes as a value. The writer's boolean success result is not modelled.
- The constructor (locale and environment set-up), the singleton, the
  lookup wrappers and `_moConverter`. They are plumbing around the engine;
  `_moConverter` only composes parsing and writing.
- PHP arrays with numeric-string keys, which PHP turns into integer keys.
  Catalog and cache keys are plain strings here.
- A missing msgid reads as the empty string (PHP's null as an array key).
- `$x[0]` on an empty string is modelled as "not a quote".
- `eval` beyond the closed decoder. A `\u{...}` escape is kept as plain
  text.
- PHP versions after 5. The model follows PHP 5, whose `@ eval` returns
  `false` on a parse error. From PHP 7 on it throws a `ParseError` that `@`
  does not silence. So `Cleaner.Clean` returning None, `PoParser.Parse`
  returning None, and a failed form becoming the empty string are PHP 5
  behaviour; on later versions the same inputs end in an uncaught
  exception.
- Variable interpolation. Every bare `$` is escaped first, but input
  `\$name` becomes `\\$name`, which PHP reads as a backslash followed by
  the interpolated variable `$name`; the decoder keeps `$name` literal.
  What PHP makes of it depends on the name: an undefined variable gives the
  empty string; `\$x` gives the protected field text itself, since `$x` is
  the cleaning function's own parameter; `\$this` ends in a fatal error, as
  the object cannot be turned into a string; and `\$a[` is a parse error,
  because the `[` opens an array offset the literal never closes, so PHP
  fails the whole parse where the model decodes the field to `\$a[`.
- Cleaner.UnescapeRejectsBareQuote: every unescaped `"` fails, also where
  the evaluated literal would happen to be valid PHP, such as `a" . "b`.
- The MO hash table. The writer never builds one; its size word is 0.
- Text encodings. A character stands for one byte, and a code point above
  255 keeps its low eight bits when written.
- `pack('I')` and `pack('i')` use the host's byte order. `WriteMo` takes the
  order as a parameter, and `Write` fixes it to little-endian.
- MoReader.Read: a header word, table or string that runs past the end of the file makes the read fail, where PHP reads short data and continues with what `unpack` gives; a file with no mapping gives the empty cache, where PHP 5 and 7 return null and PHP 8 throws a `ValueError`, because `_moReadData` then calls `fread($fp, 0)` (lines 370 and 411-414); the result is the cache for one locale, without the `$result[$locale]` level.
- MoReader.FetchAll: fails when any string lies outside the file, for the same reason as `MoReader.Read`.
- RoundTrip.ReadWritten: only files under 4 GiB are covered, because `pack('i')` keeps 32 bits of each offset.
- RoundTrip.SimpleRoundTrip: only files under 4 GiB are covered, for the same reason.
- RoundTrip.PluralRoundTrip: covers a catalog of one plural entry without context, and only files under 4 GiB.
- RoundTrip.ByteOrderIrrelevant: only files under 4 GiB are covered.
- RoundTrip.WrittenKeyPair: only files under 4 GiB are covered.
- RoundTrip.WrittenValuePair: only files under 4 GiB are covered.

=== FILE: bytes.dfy ===
/** Bytes of an MO file, the 32-bit words packed into them, and the
    correspondence between PHP strings and byte sequences. */
module Bytes {

  import opened Wrappers

  newtype byte = b: int | 0 <= b < 256

  type Bytes = seq<byte>

  /** The first word of every MO file. */
  const Magic: nat := 0x950412DE

  /** Number of distinct 32-bit words; `pack` keeps only the low 32 bits. */
  const WordRange: nat := 0x1_0000_0000

  /** A PHP string is a string of bytes: every character code is below 256. */
  predicate IsByteString(s: string) {
    forall i :: 0 <= i < |s| ==> s[i] as int < 256
  }

  /** The bytes of a string; a code point above 255 (which a PHP string cannot
      hold) keeps its low eight bits. */
  function ToBytes(s: string): (bs: Bytes)
    ensures |bs| == |s|
  {
    seq(|s|, i requires 0 <= i < |s| => (s[i] as int % 256) as byte)
  }

  /** The string whose characters are the given bytes. */
  function ToText(bs: Bytes): (s: string)
    ensures |s| == |bs|
    ensures IsByteString(s)
  {
    seq(|bs|, i requires 0 <= i < |bs| => bs[i] as int as char)
  }

  lemma {:induction false} TextOfBytes(s: string)
    requires IsByteString(s)
    ensures ToText(ToBytes(s)) == s
  {
    assert forall i :: 0 <= i < |s| ==> ToText(ToBytes(s))[i] == s[i];
  }

  datatype Endian = Little | Big

  /** One word as four bytes in the given order (`pack('V')` / `pack('N')`);
      only the value modulo 2^32 is kept. */
  function EncodeWord(w: nat, order: Endian): (bs: Bytes)
    ensures |bs| == 4
  {
    var b0 := (w % 256) as byte;
    var b1 := (w / 256 % 256) as byte;
    var b2 := (w / 256 / 256 % 256) as byte;
    var b3 := (w / 256 / 256 / 256 % 256) as byte;
    if order == Little then [b0, b1, b2, b3] else [b3, b2, b1, b0]
  }

  /** Four bytes read as one unsigned word (`unpack('V')` / `unpack('N')`). */
  function DecodeWord(bs: Bytes, order: Endian): (w: nat)
    requires |bs| == 4
    ensures w < WordRange
  {
    if order == Little then
      bs[0] as int + 256 * bs[1] as int + 65536 * bs[2] as int + 16777216 * bs[3] as int
    else
      bs[3] as int + 256 * bs[2] as int + 65536 * bs[1] as int + 16777216 * bs[0] as int
  }

  /** Decoding undoes encoding in either byte order, up to the 32-bit truncation. */
  lemma {:induction false} DecodeEncode(w: nat, order: Endian)
    ensures DecodeWord(EncodeWord(w, order), order) == w % WordRange
  {
    var bs := EncodeWord(w, order);
    var low := w % 256 + 256 * (w / 256 % 256) + 65536 * (w / 256 / 256 % 256) + 16777216 * (w / 256 / 256 / 256 % 256);
    assert DecodeWord(bs, order) == low;
    LowBytes(w);
  }

  /** The four low bytes of `w`, weighted, are `w` modulo 2^32. */
  lemma {:induction false} LowBytes(w: nat)
    ensures w % 256 + 256 * (w / 256 % 256) + 65536 * (w / 256 / 256 % 256) + 16777216 * (w / 256 / 256 / 256 % 256)
            == w % WordRange
  {
    var q1 := w / 256;
    var q2 := q1 / 256;
    var q3 := q2 / 256;
    var q4 := q3 / 256;
    assert w == 256 * q1 + w % 256;
    assert q1 == 256 * q2 + q1 % 256;
    assert q2 == 256 * q3 + q2 % 256;
    assert q3 == 256 * q4 + q3 % 256;
    var low := w % 256 + 256 * (q1 % 256) + 65536 * (q2 % 256) + 16777216 * (q3 % 256);
    assert w == low + WordRange * q4;
    assert 0 <= low < WordRange;
    ModOfSum(low, q4);
  }

  lemma {:induction false} ModOfSum(low: nat, q: nat)
    requires low < WordRange
    ensures (low + WordRange * q) % WordRange == low
  {
  }

  /** The word at byte offset `at`, or `None` when the file is too short. */
  function WordAt(bs: Bytes, at: nat, order: Endian): (r: Option<nat>)
    ensures r.Some? <==> at + 4 <= |bs|
    ensures r.Some? ==> r.value < WordRange
  {
    if at + 4 <= |bs| then Some(DecodeWord(bs[at..at + 4], order)) else None
  }

  /** A run of words, each packed as four bytes (`pack('i', ...)` per word). */
  function Words(ws: seq<nat>, order: Endian): (bs: Bytes)
    ensures |bs| == 4 * |ws|
  {
    if |ws| == 0 then [] else EncodeWord(ws[0], order) + Words(ws[1..], order)
  }

  /** Word `j` of a packed run sits at byte offset `4 * j`. */
  lemma {:induction false} WordsAt(ws: seq<nat>, order: Endian, j: nat)
    requires j < |ws|
    ensures Words(ws, order)[4 * j..4 * j + 4] == EncodeWord(ws[j], order)
    decreases j
  {
    if j > 0 {
      WordsAt(ws[1..], order, j - 1);
      var rest := Words(ws[1..], order);
      assert Words(ws, order) == EncodeWord(ws[0], order) + rest;
      assert Words(ws, order)[4 * j..4 * j + 4] == rest[4 * (j - 1)..4 * (j - 1) + 4];
    }
  }

  /** Reading back a packed word, anywhere in a file that starts with the run. */
  lemma {:induction false} ReadPackedWord(ws: seq<nat>, order: Endian, tail: Bytes, j: nat)
    requires j < |ws| && ws[j] < WordRange
    ensures WordAt(Words(ws, order) + tail, 4 * j, order) == Some(ws[j])
  {
    var bs := Words(ws, order) + tail;
    WordsAt(ws, order, j);
    assert bs[4 * j..4 * j + 4] == Words(ws, order)[4 * j..4 * j + 4];
    DecodeEncode(ws[j], order);
  }
}

=== FILE: catalog.dfy ===
/** The catalog the PO parser builds and the MO writer consumes. */
module Catalogs {

  import opened Wrappers

  /** One translation: optional context, the original string, the optional
      plural original, and the translated forms (one for a simple entry, one
      per plural form otherwise). */
  datatype Entry = Entry(msgctxt: Option<string>, msgid: string, msgidPlural: Option<string>, msgstr: seq<string>)

  /** A PHP array keyed by msgid: no two entries share a msgid. */
  predicate DistinctMsgids(c: seq<Entry>) {
    forall i, j :: 0 <= i < j < |c| ==> c[i].msgid != c[j].msgid
  }

  /** The entry that msgid `k` looks up: the first one carrying it. */
  function Find(c: seq<Entry>, k: string): (r: Option<Entry>)
    ensures r.Some? ==> r.value in c && r.value.msgid == k
    ensures r.None? <==> forall e :: e in c ==> e.msgid != k
  {
    if |c| == 0 then None
    else if c[0].msgid == k then Some(c[0])
    else Find(c[1..], k)
  }

  /** Position of the first entry whose msgid is `k`, or -1. */
  function IndexOf(c: seq<Entry>, k: string): (i: int)
    ensures -1 <= i < |c|
    ensures i >= 0 ==> c[i].msgid == k && forall j :: 0 <= j < i ==> c[j].msgid != k
    ensures i == -1 ==> forall j :: 0 <= j < |c| ==> c[j].msgid != k
  {
    if |c| == 0 then -1
    else if c[0].msgid == k then 0
    else var j := IndexOf(c[1..], k); if j == -1 then -1 else j + 1
  }

  lemma {:induction false} FindAt(c: seq<Entry>, k: string, i: int)
    requires 0 <= i < |c| && c[i].msgid == k
    requires forall j :: 0 <= j < i ==> c[j].msgid != k
    ensures Find(c, k) == Some(c[i])
  {
    if i > 0 {
      FindAt(c[1..], k, i - 1);
    }
  }

  /** Storing `e` under its msgid: an existing entry with that msgid is replaced
      where it stands, otherwise `e` is appended. Afterwards `e` is what its
      msgid finds, every other msgid finds what it found before, and msgids stay
      distinct. */
  function Put(c: seq<Entry>, e: Entry): (r: seq<Entry>)
    ensures Find(r, e.msgid) == Some(e)
    ensures forall k :: k != e.msgid ==> Find(r, k) == Find(c, k)
    ensures DistinctMsgids(c) ==> DistinctMsgids(r)
    ensures forall x :: x in r ==> x in c || x == e
  {
    var i := IndexOf(c, e.msgid);
    if i == -1 then
      var r := c + [e];
      FindAt(r, e.msgid, |c|);
      assert forall k :: k != e.msgid ==> Find(r, k) == Find(c, k) by {
        forall k | k != e.msgid
          ensures Find(r, k) == Find(c, k)
        {
          FindAppend(c, e, k);
        }
      }
      r
    else
      var r := c[i := e];
      FindAt(r, e.msgid, i);
      assert forall k :: k != e.msgid ==> Find(r, k) == Find(c, k) by {
        forall k | k != e.msgid
          ensures Find(r, k) == Find(c, k)
        {
          FindUpdate(c, i, e, k);
        }
      }
      r
  }

  lemma {:induction false} FindAppend(c: seq<Entry>, e: Entry, k: string)
    requires k != e.msgid
    ensures Find(c + [e], k) == Find(c, k)
  {
    if |c| > 0 {
      assert (c + [e])[1..] == c[1..] + [e];
      FindAppend(c[1..], e, k);
    }
  }

  lemma {:induction false} FindUpdate(c: seq<Entry>, i: int, e: Entry, k: string)
    requires 0 <= i < |c| && c[i].msgid == e.msgid && k != e.msgid
    ensures Find(c[i := e], k) == Find(c, k)
  {
    if |c| > 0 && i > 0 {
      assert c[i := e][1..] == c[1..][i - 1 := e];
      FindUpdate(c[1..], i - 1, e, k);
    }
  }
}

=== FILE: cleaner.dfy ===
/** `_poCleanHelper` on one field value: strip the surrounding quotes, join
    the quoted segments of continuation lines, protect `$`, then decode the
    escapes of a PHP double-quoted literal. The source hands the last step to
    `eval`; here it is the closed decoder `Unescape`. */
module Cleaner {

  import opened Wrappers
  import opened Text

  /** The marker left between two quoted segments once continuation lines are
      joined with LF: closing quote, LF, opening quote. */
  const Seam: string := "\"\n\""

  /** A value that starts with a quote loses its first and its last character;
      any other value is left as it is. */
  function StripQuotes(x: string): string {
    if |x| > 0 && x[0] == '"' then (if |x| >= 2 then x[1..|x| - 1] else "") else x
  }

  /** Every `$` gets a backslash in front, so a bare `$name` is not
      interpolated. A `$` that already had a backslash (`\$name`) becomes
      `\\$name`, which PHP reads as a backslash followed by an interpolated
      variable; `Unescape` keeps that `$` literal. */
  function ProtectDollars(x: string): string {
    ReplaceAll(x, "$", "\\$")
  }

  predicate IsOctalDigit(c: char) { '0' <= c <= '7' }

  predicate IsHexDigit(c: char) { '0' <= c <= '9' || 'a' <= c <= 'f' || 'A' <= c <= 'F' }

  function DigitValue(c: char): (v: nat)
    requires IsHexDigit(c)
    ensures v < 16
  {
    if '0' <= c <= '9' then c as int - '0' as int
    else if 'a' <= c <= 'f' then c as int - 'a' as int + 10
    else c as int - 'A' as int + 10
  }

  /** The number written by `digits` in the given base. */
  function Number(digits: string, base: nat): nat
    requires forall i :: 0 <= i < |digits| ==> IsHexDigit(digits[i])
  {
    if |digits| == 0 then 0
    else Number(digits[..|digits| - 1], base) * base + DigitValue(digits[|digits| - 1])
  }

  /** How many of the first `max` characters of `s` are digits, up to the first
      non-digit (`\[0-7]{1,3}` and `\x[0-9A-Fa-f]{1,2}` are greedy). */
  function DigitRun(s: string, max: nat, octal: bool): (n: nat)
    ensures n <= max && n <= |s|
    ensures forall i :: 0 <= i < n ==> IsHexDigit(s[i]) && (octal ==> IsOctalDigit(s[i]))
    decreases max
  {
    if max == 0 || |s| == 0 then 0
    else if (if octal then IsOctalDigit(s[0]) else IsHexDigit(s[0])) then 1 + DigitRun(s[1..], max - 1, octal)
    else 0
  }

  /** The one-character escapes of a double-quoted PHP string. */
  predicate IsNamedEscape(c: char) {
    c == 'n' || c == 't' || c == 'r' || c == 'v' || c == 'e' || c == 'f' || c == '\\' || c == '$' || c == '"'
  }

  function NamedEscape(c: char): char
    requires IsNamedEscape(c)
  {
    match c
    case 'n' => '\n'
    case 't' => '\t'
    case 'r' => '\r'
    case 'v' => '\U{B}'
    case 'e' => '\U{1B}'
    case 'f' => '\U{C}'
    case _ => c
  }

  function Cons(c: char, rest: Option<string>): Option<string> {
    match rest
    case None => None
    case Some(r) => Some([c] + r)
  }

  /** The body of a double-quoted PHP literal decoded, or `None` for every
      quote that no backslash escapes and for a final lone backslash, which
      escapes the closing quote. Such a quote ends the literal early, and
      `eval` usually fails on the remainder; where the remainder happens to be
      valid PHP (`a" . "b`) the decoder still fails, a deliberate strengthening.
      Octal escapes keep the low eight bits of their value; a hexadecimal
      escape may be written `\x` or `\X`. A backslash before any other
      character, and before an `x` or `X` that no hexadecimal digit follows,
      stays as it is. */
  function Unescape(s: string): (r: Option<string>)
    decreases |s|
  {
    if |s| == 0 then Some("")
    else if s[0] == '"' then None
    else if s[0] != '\\' then Cons(s[0], Unescape(s[1..]))
    else if |s| == 1 then None
    else if IsNamedEscape(s[1]) then Cons(NamedEscape(s[1]), Unescape(s[2..]))
    else if IsOctalDigit(s[1]) then
      var n := DigitRun(s[1..], 3, true);
      Cons((Number(s[1..1 + n], 8) % 256) as char, Unescape(s[1 + n..]))
    else if (s[1] == 'x' || s[1] == 'X') && |s| > 2 && IsHexDigit(s[2]) then
      var n := DigitRun(s[2..], 2, false);
      Cons((Number(s[2..2 + n], 16) % 256) as char, Unescape(s[2 + n..]))
    else Cons('\\', Cons(s[1], Unescape(s[2..])))
  }

  /** `_poCleanHelper` on a string; `None` stands for the `false` that a
      failed `eval` returns under PHP 5. A value with neither backslash nor
      quote is taken literally, `$` included. */
  function Clean(x: string): (r: Option<string>)
    ensures '\\' !in x && '"' !in x ==> r == Some(x)
  {
    var y := ReplaceAll(StripQuotes(x), Seam, "");
    CleanLiteral(x, y);
    Unescape(ProtectDollars(y))
  }

  lemma {:induction false} CleanLiteral(x: string, y: string)
    requires y == ReplaceAll(StripQuotes(x), Seam, "")
    ensures '\\' !in x && '"' !in x ==> Unescape(ProtectDollars(y)) == Some(x)
  {
    if '\\' !in x && '"' !in x {
      ReplaceAbsent(x, Seam, "", 0);
      UnescapeProtected(x);
    }
  }

  /** The two spellings of a hexadecimal escape decode alike: one or two
      hexadecimal digits after `\x` or `\X` become the character of that
      value. */
  lemma {:induction false} HexEscapeEitherCase(t: string)
    requires |t| > 0 && IsHexDigit(t[0])
    ensures var n := DigitRun(t, 2, false);
      && 1 <= n <= 2
      && Unescape("\\x" + t) == Cons((Number(t[..n], 16) % 256) as char, Unescape(t[n..]))
      && Unescape("\\X" + t) == Unescape("\\x" + t)
  {
    var n := DigitRun(t, 2, false);
    HexEscapeAt('x', t, n);
    HexEscapeAt('X', t, n);
  }

  lemma {:induction false} HexEscapeAt(c: char, t: string, n: nat)
    requires c == 'x' || c == 'X'
    requires |t| > 0 && IsHexDigit(t[0]) && n == DigitRun(t, 2, false)
    ensures 1 <= n <= 2
    ensures Unescape(['\\', c] + t) == Cons((Number(t[..n], 16) % 256) as char, Unescape(t[n..]))
  {
    var s := ['\\', c] + t;
    assert s[0] == '\\' && s[1] == c && s[2] == t[0];
    assert !IsNamedEscape(c) && !IsOctalDigit(c);
    assert s[2..] == t;
    assert s[2..2 + n] == t[..n] && s[2 + n..] == t[n..];
  }

  /** Text without backslash or quote survives protection and decoding: each
      protected `$` decodes back to `$`. */
  lemma {:induction false} UnescapeProtected(s: string)
    requires '\\' !in s && '"' !in s
    ensures Unescape(ProtectDollars(s)) == Some(s)
    decreases |s|
  {
    if |s| > 0 {
      UnescapeProtected(s[1..]);
      ReplaceOneAppend([s[0]], s[1..], '$', "\\$");
      assert [s[0]] + s[1..] == s;
      var rest := ProtectDollars(s[1..]);
      if s[0] == '$' {
        assert ProtectDollars([s[0]]) == "\\$";
        assert ("\\$" + rest)[2..] == rest;
      } else {
        assert ProtectDollars([s[0]]) == [s[0]];
        assert ([s[0]] + rest)[1..] == rest;
      }
    }
  }

  // ---------------------------------------------------------------------------
  // The inverse of the decoder: how a PO editor writes a string between quotes.

  function QuoteChar(c: char): string {
    if c == '"' then "\\\"" else if c == '\\' then "\\\\" else if c == '\n' then "\\n" else [c]
  }

  /** The text of `s` inside a PO quoted string: quote, backslash and LF escaped. */
  function PoQuote(s: string): string
    decreases |s|
  {
    if |s| == 0 then "" else QuoteChar(s[0]) + PoQuote(s[1..])
  }

  lemma {:induction false} PoQuoteAppend(a: string, b: string)
    ensures PoQuote(a + b) == PoQuote(a) + PoQuote(b)
    decreases |a|
  {
    if |a| > 0 {
      assert (a + b)[1..] == a[1..] + b;
      PoQuoteAppend(a[1..], b);
    } else {
      assert a + b == b;
    }
  }

  lemma {:induction false} PoQuoteHasNoNewline(s: string)
    ensures '\n' !in PoQuote(s)
    decreases |s|
  {
    if |s| > 0 {
      PoQuoteHasNoNewline(s[1..]);
    }
  }

  /** Quoting adds only backslashes, quotes and `n`; any other character is
      in the quoted text only if it is in the string. */
  lemma {:induction false} PoQuoteAdds(s: string, c: char)
    requires c !in s && c != '\\' && c != '"' && c != 'n'
    ensures c !in PoQuote(s)
    decreases |s|
  {
    if |s| > 0 {
      PoQuoteAdds(s[1..], c);
    }
  }

  /** One escaped character, followed by anything, decodes to that character. */
  lemma {:induction false} UnescapeToken(c: char, rest: string)
    ensures Unescape(ProtectDollars(QuoteChar(c)) + rest) == Cons(c, Unescape(rest))
  {
    var q := QuoteChar(c);
    if c == '"' || c == '\\' || c == '\n' {
      assert '$' !in q;
      ReplaceAbsent(q, "$", "\\$", 0);
      assert (q + rest)[2..] == rest;
    } else if c == '$' {
      assert ProtectDollars(q) == "\\$";
      assert (ProtectDollars(q) + rest)[2..] == rest;
    } else {
      ReplaceAbsent(q, "$", "\\$", 0);
      assert ([c] + rest)[1..] == rest;
    }
  }

  /** Decoding a protected, PO-quoted string gives the string back. */
  lemma {:induction false} UnescapeQuoted(s: string)
    ensures Unescape(ProtectDollars(PoQuote(s))) == Some(s)
    decreases |s|
  {
    if |s| > 0 {
      var rest := ProtectDollars(PoQuote(s[1..]));
      UnescapeQuoted(s[1..]);
      ReplaceOneAppend(QuoteChar(s[0]), PoQuote(s[1..]), '$', "\\$");
      assert ProtectDollars(PoQuote(s)) == ProtectDollars(QuoteChar(s[0])) + rest;
      UnescapeToken(s[0], rest);
      assert [s[0]] + s[1..] == s;
    }
  }

  /** A value written as one quoted string cleans back to the string. */
  lemma {:induction false} CleanQuoted(s: string)
    ensures Clean("\"" + PoQuote(s) + "\"") == Some(s)
  {
    var q := PoQuote(s);
    assert StripQuotes("\"" + q + "\"") == q;
    PoQuoteHasNoNewline(s);
    ReplaceAbsent(q, Seam, "", 1);
    UnescapeQuoted(s);
  }

  /** The seams between quoted segments vanish wherever they are; text without
      LF in front of them passes through. */
  lemma {:induction false} SeamFreePrefix(a: string, rest: string)
    requires '\n' !in a
    requires |rest| > 0 ==> rest[0] != '\n'
    ensures ReplaceAll(a + rest, Seam, "") == a + ReplaceAll(rest, Seam, "")
    decreases |a|
  {
    if |a| > 0 {
      assert !(Seam <= a + rest) by {
        if |a| > 1 { assert (a + rest)[1] == a[1]; } else { assert |rest| > 0 ==> (a + rest)[1] == rest[0]; }
      }
      assert (a + rest)[1..] == a[1..] + rest;
      SeamFreePrefix(a[1..], rest);
    } else {
      assert a + rest == rest;
    }
  }

  /** Segments `"s0"`, `"s1"`, ... on consecutive lines, as the PO parser
      glues them: LF between the lines. */
  function Glue(parts: seq<string>): string
    requires |parts| >= 1
  {
    if |parts| == 1 then PoQuote(parts[0]) else PoQuote(parts[0]) + Seam + Glue(parts[1..])
  }

  function Concat(parts: seq<string>): string {
    if |parts| == 0 then "" else parts[0] + Concat(parts[1..])
  }

  lemma {:induction false} GlueUnseamed(parts: seq<string>)
    requires |parts| >= 1
    ensures ReplaceAll(Glue(parts), Seam, "") == PoQuote(Concat(parts))
    decreases |parts|
  {
    PoQuoteHasNoNewline(parts[0]);
    if |parts| == 1 {
      ReplaceAbsent(PoQuote(parts[0]), Seam, "", 1);
      assert Concat(parts[1..]) == "";
      assert Concat(parts) == parts[0] + "" == parts[0];
      assert Glue(parts) == PoQuote(parts[0]);
    } else {
      GlueUnseamed(parts[1..]);
      GlueStep(parts[0], Glue(parts[1..]));
      PoQuoteAppend(parts[0], Concat(parts[1..]));
    }
  }

  lemma {:induction false} GlueStep(p: string, tail: string)
    ensures ReplaceAll(PoQuote(p) + Seam + tail, Seam, "") == PoQuote(p) + ReplaceAll(tail, Seam, "")
  {
    var q := PoQuote(p);
    PoQuoteHasNoNewline(p);
    assert q + Seam + tail == q + (Seam + tail);
    SeamFreePrefix(q, Seam + tail);
    assert (Seam + tail)[|Seam|..] == tail;
  }

  /** A value continued over several quoted lines cleans to the concatenation
      of its segments: `""`, `"Hello, "`, `"world!"` gives `Hello, world!`. */
  lemma {:induction false} CleanJoinsSegments(parts: seq<string>)
    requires |parts| >= 1
    ensures Clean("\"" + Glue(parts) + "\"") == Some(Concat(parts))
  {
    var g := Glue(parts);
    assert StripQuotes("\"" + g + "\"") == g;
    GlueUnseamed(parts);
    UnescapeQuoted(Concat(parts));
  }

  /** Decoding never lengthens the text. */
  lemma {:induction false} UnescapeShrinks(s: string)
    requires Unescape(s).Some?
    ensures |Unescape(s).value| <= |s|
    decreases |s|
  {
    if |s| > 0 {
      if s[0] != '\\' {
        UnescapeShrinks(s[1..]);
      } else if IsNamedEscape(s[1]) {
        UnescapeShrinks(s[2..]);
      } else if IsOctalDigit(s[1]) {
        UnescapeShrinks(s[1 + DigitRun(s[1..], 3, true)..]);
      } else if s[1] == 'x' && |s| > 2 && IsHexDigit(s[2]) {
        UnescapeShrinks(s[2 + DigitRun(s[2..], 2, false)..]);
      } else {
        UnescapeShrinks(s[2..]);
      }
    }
  }

  /** Text with neither backslash nor quote decodes to itself. */
  lemma {:induction false} UnescapePlain(s: string)
    requires '\\' !in s && '"' !in s
    ensures Unescape(s) == Some(s)
    decreases |s|
  {
    if |s| > 0 {
      UnescapePlain(s[1..]);
      assert [s[0]] + s[1..] == s;
    }
  }

  /** A quote that no backslash can reach makes decoding fail. */
  lemma {:induction false} UnescapeRejectsBareQuote(a: string, b: string)
    requires '\\' !in a
    ensures Unescape(a + "\"" + b) == None
    decreases |a|
  {
    if |a| > 0 {
      assert (a + "\"" + b)[1..] == a[1..] + "\"" + b;
      UnescapeRejectsBareQuote(a[1..], b);
    }
  }
}

=== FILE: mo_reader.dfy ===
/** `_moRead` and `_moReadData`: a GNU MO file back into a translation cache.
    The first word decides the byte order; the header gives the entry count
    and where the two (length, offset) tables are; each key is split at NUL
    into msgid and plural, each value into its forms. */
module MoReader {

  import opened Wrappers
  import opened Text
  import opened Bytes

  /** The magic number as a little-endian read sees a big-endian file. */
  const SwappedMagic: nat := 0xDE120495

  /** Files shorter than this are refused before anything is read. */
  const MinSize: nat := 10

  /** A cache value: a plain string, or the array of plural forms. */
  datatype Translation = Single(text: string) | Forms(forms: seq<string>)

  type Cache = map<string, Translation>

  /** The byte order the first word selects. It is always read little-endian
      (`$_bigEndian` is reset to false before it), so a big-endian file shows
      the swapped magic. */
  function DetectOrder(mo: Bytes): (r: Option<Endian>)
    requires |mo| >= 4
    ensures r == Some(Little) <==> DecodeWord(mo[..4], Little) == Magic
    ensures r == Some(Big) <==> DecodeWord(mo[..4], Little) == SwappedMagic
    ensures r.None? <==> DecodeWord(mo[..4], Little) !in {Magic, SwappedMagic}
  {
    var w := DecodeWord(mo[..4], Little);
    if w == Magic then Some(Little) else if w == SwappedMagic then Some(Big) else None
  }

  /** One row of an index table. */
  datatype Pair = Pair(len: nat, off: nat)

  /** The `n` (length, offset) pairs of a table that starts at byte `at`, or
      None if the file ends first. */
  function ReadPairs(mo: Bytes, at: nat, n: nat, order: Endian): (r: Option<seq<Pair>>)
    ensures r.Some? <==> at + 8 * n <= |mo|
    ensures r.Some? ==> |r.value| == n
    ensures r.Some? ==>
              forall i :: 0 <= i < n ==>
                && WordAt(mo, at + 8 * i, order) == Some(r.value[i].len)
                && WordAt(mo, at + 8 * i + 4, order) == Some(r.value[i].off)
  {
    if at + 8 * n <= |mo| then
      Some(seq(n, i requires 0 <= i < n && at + 8 * n <= |mo| =>
        Pair(DecodeWord(mo[at + 8 * i..at + 8 * i + 4], order),
             DecodeWord(mo[at + 8 * i + 4..at + 8 * i + 8], order))))
    else None
  }

  /** A string slot: length zero is not read at all. */
  datatype Slot = Skipped | Loaded(text: string)

  predicate InBounds(mo: Bytes, p: Pair) {
    p.len == 0 || p.off + p.len <= |mo|
  }

  function Fetch(mo: Bytes, p: Pair): (s: Slot)
    requires InBounds(mo, p)
    ensures s.Skipped? <==> p.len == 0
    ensures s.Loaded? ==> s.text == ToText(mo[p.off..p.off + p.len])
  {
    if p.len == 0 then Skipped else Loaded(ToText(mo[p.off..p.off + p.len]))
  }

  /** Every `fread` of the loop, or None if one would run past the end. */
  function FetchAll(mo: Bytes, ps: seq<Pair>): (r: Option<seq<Slot>>)
    ensures r.Some? <==> forall i :: 0 <= i < |ps| ==> InBounds(mo, ps[i])
    ensures r.Some? ==> |r.value| == |ps|
    ensures r.Some? ==> forall i :: 0 <= i < |ps| ==> InBounds(mo, ps[i]) && r.value[i] == Fetch(mo, ps[i])
  {
    if forall i :: 0 <= i < |ps| ==> InBounds(mo, ps[i]) then
      Some(seq(|ps|, i requires 0 <= i < |ps| && InBounds(mo, ps[i]) => Fetch(mo, ps[i])))
    else None
  }

  /** What the loop carries from one entry to the next: `$original` (which
      survives an entry whose key is skipped) and the cache built so far. */
  datatype Carry = Carry(original: seq<string>, result: Cache)

  const Initial: Carry := Carry([], map[])

  /** The pieces of the current original with the first one emptied; with no
      pieces at all, a single empty piece. */
  function SetFirstEmpty(parts: seq<string>): (r: seq<string>)
    ensures |r| >= 1 && r[0] == ""
    ensures |parts| >= 1 ==> r[1..] == parts[1..]
  {
    if |parts| == 0 then [""] else [""] + parts[1..]
  }

  /** The originals an entry works with. */
  function Originals(st: Carry, key: Slot): (o: seq<string>)
    ensures |o| >= 1
  {
    match key
    case Loaded(t) => Split(t, Nul)
    case Skipped => SetFirstEmpty(st.original)
  }

  /** The `foreach` over the plural msgids: each maps to the empty string. */
  function MarkPlurals(m: Cache, ks: seq<string>): (r: Cache)
    ensures r.Keys == m.Keys + set k | k in ks
    ensures forall k :: k in ks ==> r[k] == Single("")
    ensures forall k :: k in m && k !in ks ==> r[k] == m[k]
    decreases |ks|
  {
    if |ks| == 0 then m else MarkPlurals(m[ks[0] := Single("")], ks[1..])
  }

  /** One turn of the loop. A skipped value leaves the cache alone. A plural
      key with plural forms stores all forms under the msgid and the empty
      string under each plural msgid; anything else stores the first form
      under the first original. */
  function Absorb(st: Carry, key: Slot, value: Slot): (r: Carry)
    ensures st.result.Keys <= r.result.Keys
    ensures r.result.Keys <= st.result.Keys + set k | k in Originals(st, key)
  {
    var original := Originals(st, key);
    match value
    case Skipped => Carry(original, st.result)
    case Loaded(t) =>
      var translate := Split(t, Nul);
      if |original| > 1 && |translate| > 1 then
        Carry(original[1..], MarkPlurals(st.result[original[0] := Forms(translate)], original[1..]))
      else
        Carry(original, st.result[original[0] := Single(translate[0])])
  }

  /** The loop over all entries: the cache only grows. */
  function Run(st: Carry, keys: seq<Slot>, vals: seq<Slot>): (r: Carry)
    requires |keys| == |vals|
    ensures st.result.Keys <= r.result.Keys
    decreases |keys|
  {
    if |keys| == 0 then st else Run(Absorb(st, keys[0], vals[0]), keys[1..], vals[1..])
  }

  /** `_moRead` on the file's bytes, without the locale level of the result.
      None stands for `false` and for a read past the end of the file. The
      empty msgid (the header entry) is never in the result. */
  function Read(mo: Bytes): (r: Option<Cache>)
    ensures |mo| < MinSize ==> r.None?
    ensures |mo| >= MinSize && DecodeWord(mo[..4], Little) !in {Magic, SwappedMagic} ==> r.None?
    ensures r.Some? ==> "" !in r.value
  {
    if |mo| < MinSize then None
    else
      var order :- DetectOrder(mo);
      var count :- WordAt(mo, 8, order);
      var keyTable :- WordAt(mo, 12, order);
      var valueTable :- WordAt(mo, 16, order);
      var keyPairs :- ReadPairs(mo, keyTable, count, order);
      var valuePairs :- ReadPairs(mo, valueTable, count, order);
      var keys :- FetchAll(mo, keyPairs);
      var values :- FetchAll(mo, valuePairs);
      Some(Run(Initial, keys, values).result - {""})
  }

  // ---------------------------------------------------------------------------
  // What one entry does to the cache

  /** A plural key with plural forms: the msgid gets all forms (unless it
      also appears as a plural msgid), every plural msgid gets the empty
      string, and every other key keeps its value. */
  lemma {:induction false} AbsorbPlural(st: Carry, key: Slot, t: string)
    requires |Originals(st, key)| > 1 && |Split(t, Nul)| > 1
    ensures var r := Absorb(st, key, Loaded(t)).result;
            var o := Originals(st, key);
            && r.Keys == st.result.Keys + set k | k in o
            && (forall k :: k in o[1..] ==> r[k] == Single(""))
            && (o[0] !in o[1..] ==> r[o[0]] == Forms(Split(t, Nul)))
            && (forall k :: k in st.result && k !in o ==> r[k] == st.result[k])
  {
    var o := Originals(st, key);
    assert Absorb(st, key, Loaded(t)).result == MarkPlurals(st.result[o[0] := Forms(Split(t, Nul))], o[1..]);
    StorePlural(st.result, o, Split(t, Nul));
  }

  lemma {:induction false} StorePlural(m: Cache, o: seq<string>, forms: seq<string>)
    requires |o| > 1
    ensures var r := MarkPlurals(m[o[0] := Forms(forms)], o[1..]);
            && r.Keys == m.Keys + set k | k in o
            && (forall k :: k in o[1..] ==> r[k] == Single(""))
            && (o[0] !in o[1..] ==> r[o[0]] == Forms(forms))
            && (forall k :: k in m && k !in o ==> r[k] == m[k])
  {
    ElementsOfCons(o);
  }

  /** Any other loaded value: the first original gets the first form, and
      every other key keeps its value. */
  lemma {:induction false} AbsorbSingle(st: Carry, key: Slot, t: string)
    requires |Originals(st, key)| <= 1 || |Split(t, Nul)| <= 1
    ensures var r := Absorb(st, key, Loaded(t)).result;
            var o := Originals(st, key);
            && r.Keys == st.result.Keys + {o[0]}
            && r[o[0]] == Single(Split(t, Nul)[0])
            && (forall k :: k in st.result && k != o[0] ==> r[k] == st.result[k])
  {
  }

  lemma {:induction false} ElementsOfCons(o: seq<string>)
    requires |o| >= 1
    ensures (set k | k in o) == {o[0]} + set k | k in o[1..]
  {
    assert o == [o[0]] + o[1..];
  }

  /** The first form read is the value up to its first NUL. */
  lemma {:induction false} FirstForm(t: string)
    ensures Split(t, Nul)[0] <= t
    ensures Nul !in Split(t, Nul)[0]
    ensures Nul !in t ==> Split(t, Nul) == [t]
  {
    var parts := Split(t, Nul);
    JoinPrefix(parts, Nul);
    if Nul !in t {
      SplitAfterPiece(t, Nul, []);
    }
  }

  lemma {:induction false} JoinPrefix(parts: seq<string>, sep: char)
    requires |parts| >= 1
    ensures parts[0] <= Join(parts, sep)
  {
    if |parts| > 1 {
      JoinPrefix(parts[1..], sep);
    }
  }
}

=== FILE: mo_writer.dfy ===
/** `_moWrite`: a catalog as the bytes of a GNU MO file. Entries are sorted by
    msgid; their keys and values are packed NUL-terminated one after the
    other; a seven-word header and two index tables of (length, offset) words
    lead the file. */
module MoWriter {

  import opened Text
  import opened Bytes
  import opened Wrappers
  import opened Catalogs

  /** Seven header words of four bytes each. */
  const HeaderSize: nat := 28

  /** Context and msgid are joined by EOT, msgid and plural by NUL. */
  const ContextSeparator: char := '\U{4}'

  /** The key stored for an entry: `[msgctxt EOT] msgid [NUL msgid_plural]`. */
  function KeyOf(e: Entry): string {
    (if e.msgctxt.Some? then e.msgctxt.value + [ContextSeparator] else [])
    + e.msgid
    + (if e.msgidPlural.Some? then [Nul] + e.msgidPlural.value else [])
  }

  /** The key comes apart at NUL into the msgid and, when there is one, the
      plural msgid; a context comes first, closed by EOT, in the same piece as
      the msgid. */
  lemma {:induction false} KeyParts(e: Entry)
    requires Nul !in e.msgid
    requires e.msgidPlural.Some? ==> Nul !in e.msgidPlural.value
    ensures e.msgctxt.None? ==>
              Split(KeyOf(e), Nul) == [e.msgid] + (if e.msgidPlural.Some? then [e.msgidPlural.value] else [])
    ensures e.msgctxt.Some? ==> e.msgctxt.value + [ContextSeparator] <= KeyOf(e)
    ensures e.msgctxt.Some? && Nul !in e.msgctxt.value ==>
              Split(KeyOf(e), Nul)
              == [e.msgctxt.value + [ContextSeparator] + e.msgid] + (if e.msgidPlural.Some? then [e.msgidPlural.value] else [])
  {
    var head := if e.msgctxt.Some? then e.msgctxt.value + [ContextSeparator] else [];
    var first := head + e.msgid;
    assert KeyOf(e) == first + (if e.msgidPlural.Some? then [Nul] + e.msgidPlural.value else []);
    if e.msgctxt.None? {
      assert first == e.msgid;
      PluralPieces(first, e.msgidPlural);
    } else if Nul !in e.msgctxt.value {
      assert Nul !in head;
      PluralPieces(first, e.msgidPlural);
    }
  }

  /** A NUL-free first piece, then NUL and a NUL-free plural when there is
      one, comes apart at NUL into those pieces. */
  lemma {:induction false} PluralPieces(first: string, plural: Option<string>)
    requires Nul !in first
    requires plural.Some? ==> Nul !in plural.value
    ensures Split(first + (if plural.Some? then [Nul] + plural.value else []), Nul)
            == [first] + (if plural.Some? then [plural.value] else [])
  {
    if plural.Some? {
      assert first + ([Nul] + plural.value) == first + [Nul] + plural.value;
      SplitAfterPiece(first, Nul, plural.value);
      SplitAfterPiece(plural.value, Nul, []);
    } else {
      assert first + [] == first;
      SplitAfterPiece(first, Nul, []);
    }
  }

  /** The value stored for an entry: its forms joined by NUL. */
  function ValueOf(e: Entry): string {
    Join(e.msgstr, Nul)
  }

  /** The value comes apart at NUL into the forms it was joined from. */
  lemma {:induction false} ValueParts(e: Entry)
    requires |e.msgstr| >= 1
    requires forall i :: 0 <= i < |e.msgstr| ==> Nul !in e.msgstr[i]
    ensures Split(ValueOf(e), Nul) == e.msgstr
  {
    SplitJoin(e.msgstr, Nul);
  }

  // ---------------------------------------------------------------------------
  // `ksort($hash, SORT_STRING)`

  /** Entry `i` does not sort before the entry in front of it. */
  predicate InOrder(es: seq<Entry>, i: int)
    requires 0 < i < |es|
  {
    Below(es[i - 1].msgid, es[i].msgid)
  }

  predicate SortedByMsgid(es: seq<Entry>) {
    forall i :: 0 < i < |es| ==> InOrder(es, i)
  }

  /** An entry that sorts no later than the head keeps a sorted run sorted. */
  lemma {:induction false} SortedCons(h: Entry, rest: seq<Entry>)
    requires SortedByMsgid(rest)
    requires |rest| > 0 ==> Below(h.msgid, rest[0].msgid)
    ensures SortedByMsgid([h] + rest)
  {
    var r := [h] + rest;
    forall k | 0 < k < |r| ensures InOrder(r, k) {
      if k > 1 {
        assert InOrder(rest, k - 1);
      }
    }
  }

  lemma {:induction false} SortedTail(es: seq<Entry>)
    requires |es| > 0 && SortedByMsgid(es)
    ensures SortedByMsgid(es[1..])
  {
    forall k | 0 < k < |es| - 1 ensures InOrder(es[1..], k) {
      assert InOrder(es, k + 1);
    }
  }

  /** Putting `h` in front of entries whose msgids are distinct and differ from `h`'s. */
  lemma {:induction false} DistinctCons(h: Entry, rest: seq<Entry>)
    requires DistinctMsgids(rest)
    requires forall x :: x in rest ==> x.msgid != h.msgid
    ensures DistinctMsgids([h] + rest)
  {
    var r := [h] + rest;
    forall i, j | 0 <= i < j < |r| ensures r[i].msgid != r[j].msgid {
      if i == 0 {
        assert r[j] == rest[j - 1];
      } else {
        assert r[i] == rest[i - 1] && r[j] == rest[j - 1];
      }
    }
  }

  lemma {:induction false} MembersOf(r: seq<Entry>, s: seq<Entry>, e: Entry)
    requires multiset(r) == multiset(s) + multiset{e}
    ensures forall x :: x in r ==> x in s || x == e
  {
    forall x | x in r ensures x in s || x == e {
      assert x in multiset(r);
    }
  }

  function Insert(e: Entry, es: seq<Entry>): (r: seq<Entry>)
    requires SortedByMsgid(es)
    ensures SortedByMsgid(r)
    ensures multiset(r) == multiset(es) + multiset{e}
    ensures |r| == |es| + 1
    ensures r[0] == e || (|es| > 0 && r[0] == es[0])
  {
    if |es| == 0 then [e]
    else if Below(e.msgid, es[0].msgid) then
      SortedCons(e, es);
      [e] + es
    else
      BelowTotal(e.msgid, es[0].msgid);
      assert es == [es[0]] + es[1..];
      assert |es| > 1 ==> InOrder(es, 1);
      SortedTail(es);
      var rest := Insert(e, es[1..]);
      SortedCons(es[0], rest);
      [es[0]] + rest
  }

  lemma {:induction false} InsertDistinct(e: Entry, es: seq<Entry>)
    requires SortedByMsgid(es) && DistinctMsgids(es)
    requires forall x :: x in es ==> x.msgid != e.msgid
    ensures DistinctMsgids(Insert(e, es))
    decreases |es|
  {
    if |es| > 0 && !Below(e.msgid, es[0].msgid) {
      SortedTail(es);
      var rest := Insert(e, es[1..]);
      InsertDistinct(e, es[1..]);
      MembersOf(rest, es[1..], e);
      forall x | x in rest ensures x.msgid != es[0].msgid {
        if x != e {
          var j :| 0 <= j < |es[1..]| && es[1..][j] == x;
          assert es[j + 1] == x;
        }
      }
      DistinctCons(es[0], rest);
    } else if |es| > 0 {
      DistinctCons(e, es);
    }
  }

  /** The entries in ascending byte order of msgid: a permutation of the
      catalog, with distinct msgids if the catalog had them. */
  function SortByMsgid(c: seq<Entry>): (r: seq<Entry>)
    ensures SortedByMsgid(r)
    ensures multiset(r) == multiset(c)
    ensures |r| == |c|
  {
    if |c| == 0 then []
    else
      assert c == [c[0]] + c[1..];
      Insert(c[0], SortByMsgid(c[1..]))
  }

  lemma {:induction false} SortDistinct(c: seq<Entry>)
    requires DistinctMsgids(c)
    ensures DistinctMsgids(SortByMsgid(c))
  {
    if |c| > 0 {
      var rest := SortByMsgid(c[1..]);
      SortDistinct(c[1..]);
      forall x | x in rest ensures x.msgid != c[0].msgid {
        assert x in multiset(rest);
        assert x in multiset(c[1..]);
        var j :| 0 <= j < |c[1..]| && c[1..][j] == x;
        assert c[j + 1] == x;
      }
      InsertDistinct(c[0], rest);
    }
  }

  // ---------------------------------------------------------------------------
  // Packing keys and values

  /** The room NUL-terminated strings take: the sum of their lengths plus one each. */
  function PackedSize(xs: seq<Bytes>): nat {
    if |xs| == 0 then 0 else PackedSize(xs[..|xs| - 1]) + |xs[|xs| - 1]| + 1
  }

  /** Strings laid end to end, each followed by NUL. */
  function Packed(xs: seq<Bytes>): (bs: Bytes)
    ensures |bs| == PackedSize(xs)
  {
    if |xs| == 0 then [] else Packed(xs[..|xs| - 1]) + xs[|xs| - 1] + [0]
  }

  /** One row of `$offsets`: key offset and length, value offset and length,
      offsets counted from the start of their blob. */
  datatype Offsets = Offsets(idOff: nat, idLen: nat, strOff: nat, strLen: nat)

  /** What the loop over the sorted entries builds: `$ids`, `$strings`, `$offsets`. */
  datatype Accum = Accum(ids: Bytes, strs: Bytes, offsets: seq<Offsets>)

  /** `x` sits in `blob` at `off`, with its recorded length, followed by NUL. */
  predicate Locates(blob: Bytes, off: nat, len: nat, x: Bytes) {
    len == |x| && off + len < |blob| && blob[off..off + len] == x && blob[off + len] == 0
  }

  lemma {:induction false} LocatesExtended(blob: Bytes, more: Bytes, off: nat, len: nat, x: Bytes)
    requires Locates(blob, off, len, x)
    ensures Locates(blob + more, off, len, x)
  {
    assert (blob + more)[off..off + len] == blob[off..off + len];
  }

  /** Row `i` of the accumulator records where key `i` and value `i` are:
      after the packed sizes of the ones before them. */
  predicate Indexed(a: Accum, keys: seq<Bytes>, vals: seq<Bytes>, i: nat)
    requires i < |a.offsets| && i < |keys| == |vals|
  {
    && a.offsets[i].idOff == PackedSize(keys[..i])
    && Locates(a.ids, a.offsets[i].idOff, a.offsets[i].idLen, keys[i])
    && a.offsets[i].strOff == PackedSize(vals[..i])
    && Locates(a.strs, a.offsets[i].strOff, a.offsets[i].strLen, vals[i])
  }

  /** The loop at the heart of the writer. Each key is found at the sum of the
      packed sizes of the keys before it, with its length recorded without the
      NUL; the values likewise. */
  function Collect(keys: seq<Bytes>, vals: seq<Bytes>): (a: Accum)
    requires |keys| == |vals|
    ensures |a.offsets| == |keys|
    ensures |a.ids| == PackedSize(keys) && |a.strs| == PackedSize(vals)
    ensures forall i :: 0 <= i < |keys| ==> Indexed(a, keys, vals, i)
  {
    if |keys| == 0 then Accum([], [], [])
    else
      var n := |keys| - 1;
      var a := Collect(keys[..n], vals[..n]);
      var r := Accum(a.ids + keys[n] + [0], a.strs + vals[n] + [0],
                     a.offsets + [Offsets(|a.ids|, |keys[n]|, |a.strs|, |vals[n]|)]);
      CollectStep(keys, vals, a, r);
      r
  }

  lemma {:induction false} CollectStep(keys: seq<Bytes>, vals: seq<Bytes>, a: Accum, r: Accum)
    requires |keys| == |vals| > 0
    requires |a.offsets| == |keys| - 1
    requires |a.ids| == PackedSize(keys[..|keys| - 1]) && |a.strs| == PackedSize(vals[..|keys| - 1])
    requires var ks, vs := keys[..|keys| - 1], vals[..|keys| - 1];
             forall i :: 0 <= i < |ks| ==> Indexed(a, ks, vs, i)
    requires r == Accum(a.ids + keys[|keys| - 1] + [0], a.strs + vals[|keys| - 1] + [0],
                        a.offsets + [Offsets(|a.ids|, |keys[|keys| - 1]|, |a.strs|, |vals[|keys| - 1]|)])
    ensures |r.offsets| == |keys|
    ensures |r.ids| == PackedSize(keys) && |r.strs| == PackedSize(vals)
    ensures forall i :: 0 <= i < |keys| ==> Indexed(r, keys, vals, i)
  {
    var n := |keys| - 1;
    var k, v := keys[n], vals[n];
    forall i | 0 <= i < |keys| ensures Indexed(r, keys, vals, i) {
      if i < n {
        assert Indexed(a, keys[..n], vals[..n], i);
        assert keys[..n][..i] == keys[..i] && vals[..n][..i] == vals[..i];
        LocatesExtended(a.ids, k + [0], a.offsets[i].idOff, a.offsets[i].idLen, keys[i]);
        LocatesExtended(a.strs, v + [0], a.offsets[i].strOff, a.offsets[i].strLen, vals[i]);
        assert r.ids == a.ids + (k + [0]) && r.strs == a.strs + (v + [0]);
      } else {
        assert r.ids[|a.ids|..|a.ids| + |k|] == k;
        assert r.strs[|a.strs|..|a.strs| + |v|] == v;
      }
    }
  }

  // ---------------------------------------------------------------------------
  // The file

  function HeaderWords(n: nat, keyStart: nat): seq<nat> {
    [Magic, 0, n, HeaderSize, HeaderSize + 8 * n, 0, keyStart]
  }

  /** All key (length, offset) pairs, then all value pairs; offsets made
      absolute by adding where the keys and where the values start. */
  function TableWords(offs: seq<Offsets>, keyStart: nat, valueStart: nat): (ws: seq<nat>)
    ensures |ws| == 4 * |offs|
  {
    seq(2 * |offs|, j requires 0 <= j < 2 * |offs| =>
      if j % 2 == 0 then offs[j / 2].idLen else keyStart + offs[j / 2].idOff)
    + seq(2 * |offs|, j requires 0 <= j < 2 * |offs| =>
      if j % 2 == 0 then offs[j / 2].strLen else valueStart + offs[j / 2].strOff)
  }

  function Keys(es: seq<Entry>): (ks: seq<Bytes>)
    ensures |ks| == |es|
  {
    seq(|es|, i requires 0 <= i < |es| => ToBytes(KeyOf(es[i])))
  }

  function Values(es: seq<Entry>): (vs: seq<Bytes>)
    ensures |vs| == |es|
  {
    seq(|es|, i requires 0 <= i < |es| => ToBytes(ValueOf(es[i])))
  }

  /** The MO bytes with words packed in the given order (`pack('I')` and
      `pack('i')` use the host's order). The size is the header, four words
      per entry, and every key and value with its NUL. */
  function WriteMo(c: seq<Entry>, order: Endian): (mo: Bytes)
    ensures |mo| == HeaderSize + 16 * |c| + PackedSize(Keys(SortByMsgid(c))) + PackedSize(Values(SortByMsgid(c)))
  {
    WriteSorted(SortByMsgid(c), order)
  }

  /** The file for entries already in msgid order: header, the two tables,
      then the packed keys and the packed values. */
  function WriteSorted(es: seq<Entry>, order: Endian): (mo: Bytes)
    ensures |mo| == HeaderSize + 16 * |es| + PackedSize(Keys(es)) + PackedSize(Values(es))
  {
    var a := Collect(Keys(es), Values(es));
    var keyStart := HeaderSize + 16 * |es|;
    var valueStart := keyStart + |a.ids|;
    Words(HeaderWords(|es|, keyStart) + TableWords(a.offsets, keyStart, valueStart), order) + a.ids + a.strs
  }

  /** The file written on a little-endian host. */
  function Write(c: seq<Entry>): Bytes {
    WriteMo(c, Little)
  }

  /** The blobs the loop builds are the keys and the values packed in order. */
  lemma {:induction false} CollectPacks(keys: seq<Bytes>, vals: seq<Bytes>)
    requires |keys| == |vals|
    ensures Collect(keys, vals).ids == Packed(keys)
    ensures Collect(keys, vals).strs == Packed(vals)
  {
    if |keys| > 0 {
      var n := |keys| - 1;
      CollectPacks(keys[..n], vals[..n]);
    }
  }

  lemma {:induction false} RunPieces(header: seq<nat>, table: seq<nat>, ids: Bytes, strs: Bytes, order: Endian)
    ensures var mo := Words(header + table, order) + ids + strs;
            && mo[..4 * |header|] == Words(header, order)
            && mo[4 * |header| + 4 * |table|..] == ids + strs
  {
    WordsAppend(header, table, order);
    var w, t := Words(header, order), Words(table, order);
    var mo := Words(header + table, order) + ids + strs;
    assert mo == w + (t + (ids + strs));
    assert mo[..|w|] == w;
    assert mo[|w| + |t|..] == ids + strs;
  }

  lemma {:induction false} WordsAppend(xs: seq<nat>, ys: seq<nat>, order: Endian)
    ensures Words(xs + ys, order) == Words(xs, order) + Words(ys, order)
    decreases |xs|
  {
    if |xs| > 0 {
      WordsAppend(xs[1..], ys, order);
      assert (xs + ys)[0] == xs[0];
      assert (xs + ys)[1..] == xs[1..] + ys;
    } else {
      assert xs + ys == ys;
    }
  }
}

=== FILE: po_parser.dfy ===
/** `_poParser`: PO text to catalog. The text is cut into trimmed, non-blank
    lines; a line-by-line state machine collects pending entries; every field
    of every collected entry is cleaned; the cleaned entries are stored in a
    catalog keyed by msgid. */
module PoParser {

  import opened Wrappers
  import opened Text
  import opened Catalogs
  import Cleaner

  /** The field that continuation lines extend (`$state`). */
  datatype Field = Msgctxt | Msgid | MsgidPlural | Msgstr

  /** The entry under construction (`$temp`); a field is absent until its
      keyword line has been seen. */
  datatype Pending = Pending(msgctxt: Option<string>, msgid: Option<string>, msgidPlural: Option<string>, msgstr: Option<seq<string>>)

  const NoEntry: Pending := Pending(None, None, None, None)

  /** Scanner state: the entries kept so far (`$hash`), the pending entry, the
      active field (null when `None`) and the fuzzy flag. */
  datatype Scanner = Scanner(found: seq<Pending>, temp: Pending, state: Option<Field>, fuzzy: bool)

  const Start: Scanner := Scanner([], NoEntry, None, false)

  // ---------------------------------------------------------------------------
  // Line preparation

  /** Line ends made uniform: every CRLF, then every remaining CR, becomes
      LF. */
  function Normalize(text: string): (r: string)
    ensures '\r' !in r
    ensures '\r' !in text ==> r == text
  {
    var t := ReplaceAll(text, "\r\n", "\n");
    ReplaceOneRemoves(t, '\r', "\n");
    NoCarriageReturn(text);
    ReplaceAll(t, "\r", "\n")
  }

  lemma {:induction false} NoCarriageReturn(text: string)
    ensures '\r' !in text ==> ReplaceAll(ReplaceAll(text, "\r\n", "\n"), "\r", "\n") == text
  {
    if '\r' !in text {
      ReplaceAbsent(text, "\r\n", "\n", 0);
      ReplaceAbsent(text, "\r", "\n", 0);
    }
  }

  /** Line ends read one character at a time: CR followed by LF is one line
      end, a lone CR is another, and each becomes LF. */
  function LineEnds(s: string): string
    decreases |s|
  {
    if |s| == 0 then ""
    else if s[0] == '\r' then "\n" + LineEnds(if |s| > 1 && s[1] == '\n' then s[2..] else s[1..])
    else [s[0]] + LineEnds(s[1..])
  }

  /** The two replacement passes agree with reading the line ends one at a time. */
  lemma {:induction false} NormalizeReadsLineEnds(s: string)
    ensures Normalize(s) == LineEnds(s)
    decreases |s|
  {
    if |s| > 0 {
      var rest := if s[0] == '\r' && |s| > 1 && s[1] == '\n' then s[2..] else s[1..];
      var head := if s[0] == '\r' then "\n" else [s[0]];
      NormalizeReadsLineEnds(rest);
      var t := ReplaceAll(rest, "\r\n", "\n");
      if s[0] == '\r' && |s| > 1 && s[1] == '\n' {
        assert "\r\n" <= s;
        assert ReplaceAll(s, "\r\n", "\n") == "\n" + t;
      } else {
        assert !("\r\n" <= s);
        assert ReplaceAll(s, "\r\n", "\n") == [s[0]] + t;
      }
      ReplaceOneAppend([if s[0] == '\r' then '\r' else s[0]], t, '\r', "\n");
      assert ReplaceAll([if s[0] == '\r' then '\r' else s[0]], "\r", "\n") == head;
    }
  }

  /** Text that does not end in CR normalises independently of what follows. */
  lemma {:induction false} LineEndsAppend(a: string, b: string)
    requires |a| == 0 || a[|a| - 1] != '\r'
    ensures LineEnds(a + b) == LineEnds(a) + LineEnds(b)
    decreases |a|
  {
    if |a| == 0 {
      assert a + b == b;
    } else if a[0] == '\r' && a[1] == '\n' {
      assert (a + b)[1] == '\n' && (a + b)[2..] == a[2..] + b;
      LineEndsAppend(a[2..], b);
    } else {
      assert (a + b)[0] == a[0] && (a + b)[1..] == a[1..] + b;
      if a[0] == '\r' {
        assert (a + b)[1] == a[1];
      }
      LineEndsAppend(a[1..], b);
    }
  }

  /** CRLF becomes exactly one LF; the text around it is normalised on its own. */
  lemma {:induction false} NormalizeCrLf(a: string, b: string)
    requires |a| == 0 || a[|a| - 1] != '\r'
    ensures Normalize(a + "\r\n" + b) == Normalize(a) + "\n" + Normalize(b)
  {
    var s := a + "\r\n" + b;
    assert LineEnds(s) == LineEnds(a) + "\n" + LineEnds(b) by { LineEndsCrLf(a, b, s); }
    NormalizeReadsLineEnds(a);
    NormalizeReadsLineEnds(b);
    NormalizeReadsLineEnds(s);
  }

  lemma {:induction false} LineEndsCrLf(a: string, b: string, s: string)
    requires |a| == 0 || a[|a| - 1] != '\r'
    requires s == a + "\r\n" + b
    ensures LineEnds(s) == LineEnds(a) + "\n" + LineEnds(b)
  {
    var tail := "\r\n" + b;
    CrLfHead(b, tail);
    assert s == a + tail;
    LineEndsAround(a, tail, b, "\n", s);
  }

  /** Line ends of `a + tail` when `tail` starts with one line end `x`. */
  lemma {:induction false} LineEndsAround(a: string, tail: string, b: string, x: string, s: string)
    requires |a| == 0 || a[|a| - 1] != '\r'
    requires s == a + tail && LineEnds(tail) == x + LineEnds(b)
    ensures LineEnds(s) == LineEnds(a) + x + LineEnds(b)
  {
    LineEndsAppend(a, tail);
  }

  lemma {:induction false} CrLfHead(b: string, tail: string)
    requires tail == "\r\n" + b
    ensures LineEnds(tail) == "\n" + LineEnds(b)
  {
    assert tail[0] == '\r' && |tail| > 1 && tail[1] == '\n';
    assert tail[2..] == b;
  }

  /** A CR that no LF follows becomes one LF as well. */
  lemma {:induction false} NormalizeLoneCr(a: string, b: string)
    requires |a| == 0 || a[|a| - 1] != '\r'
    requires |b| == 0 || b[0] != '\n'
    ensures Normalize(a + "\r" + b) == Normalize(a) + "\n" + Normalize(b)
  {
    var s := a + "\r" + b;
    assert LineEnds(s) == LineEnds(a) + "\n" + LineEnds(b) by { LineEndsLoneCr(a, b, s); }
    NormalizeReadsLineEnds(a);
    NormalizeReadsLineEnds(b);
    NormalizeReadsLineEnds(s);
  }

  lemma {:induction false} LineEndsLoneCr(a: string, b: string, s: string)
    requires |a| == 0 || a[|a| - 1] != '\r'
    requires |b| == 0 || b[0] != '\n'
    requires s == a + "\r" + b
    ensures LineEnds(s) == LineEnds(a) + "\n" + LineEnds(b)
  {
    var tail := "\r" + b;
    LoneCrHead(b, tail);
    assert s == a + tail;
    LineEndsAround(a, tail, b, "\n", s);
  }

  lemma {:induction false} LoneCrHead(b: string, tail: string)
    requires |b| == 0 || b[0] != '\n'
    requires tail == "\r" + b
    ensures LineEnds(tail) == "\n" + LineEnds(b)
  {
    assert tail[0] == '\r' && tail[1..] == b;
    assert |tail| == 1 || tail[1] != '\n';
  }

  /** A line as the state machine sees it: non-empty, no blank at either end. */
  predicate IsTrimmedLine(s: string) {
    |s| > 0 && !IsBlank(s[0]) && !IsBlank(s[|s| - 1])
  }

  /** The trimmed form of each raw line, blank ones dropped. */
  function KeepLines(raw: seq<string>): (lines: seq<string>)
    ensures |lines| <= |raw|
    ensures forall i :: 0 <= i < |lines| ==> IsTrimmedLine(lines[i])
  {
    if |raw| == 0 then []
    else
      var line := Trim(raw[0]);
      var rest := KeepLines(raw[1..]);
      if line == "" then rest
      else
        TrimmedKept(raw[0]);
        TrimmedCons(line, rest);
        [line] + rest
  }

  lemma {:induction false} TrimmedCons(line: string, rest: seq<string>)
    requires IsTrimmedLine(line)
    requires forall i :: 0 <= i < |rest| ==> IsTrimmedLine(rest[i])
    ensures forall i :: 0 <= i < |[line] + rest| ==> IsTrimmedLine(([line] + rest)[i])
  {
    forall i | 0 <= i < |[line] + rest|
      ensures IsTrimmedLine(([line] + rest)[i])
    {
      if i > 0 {
        assert ([line] + rest)[i] == rest[i - 1];
      }
    }
  }

  lemma {:induction false} TrimmedKept(x: string)
    requires Trim(x) != ""
    ensures IsTrimmedLine(Trim(x))
  {
  }

  /** A single raw line is kept, trimmed, unless it is blank. */
  lemma {:induction false} KeepLinesOne(x: string)
    ensures KeepLines([x]) == if Trim(x) == "" then [] else [Trim(x)]
  {
    assert [x][1..] == [];
  }

  /** Lines are kept one by one, in order: the lines kept from `a + b` are
      those kept from `a`, then those kept from `b`. */
  lemma {:induction false} KeepLinesAppend(a: seq<string>, b: seq<string>)
    ensures KeepLines(a + b) == KeepLines(a) + KeepLines(b)
    decreases |a|
  {
    if |a| == 0 {
      assert a + b == b;
    } else {
      assert (a + b)[0] == a[0] && (a + b)[1..] == a[1..] + b;
      KeepLinesAppend(a[1..], b);
    }
  }

  /** The lines the state machine sees. */
  function Prepare(text: string): seq<string> {
    KeepLines(Split(Normalize(text), '\n'))
  }

  /** A line cut at its first space: the key before it and the data after
      it; without a space the whole line is the key and the data is empty. */
  function SplitKey(line: string): (kd: (string, string))
    ensures ' ' !in kd.0
    ensures ' ' in line ==> line == kd.0 + " " + kd.1
    ensures ' ' !in line ==> kd == (line, "")
  {
    if |line| == 0 then ("", "")
    else if line[0] == ' ' then ("", line[1..])
    else
      var kd := SplitKey(line[1..]);
      assert line == [line[0]] + line[1..];
      ([line[0]] + kd.0, kd.1)
  }

  lemma {:induction false} SplitKeyAt(k: string, d: string)
    requires ' ' !in k
    ensures SplitKey(k + " " + d) == (k, d)
    decreases |k|
  {
    if |k| == 0 {
      assert (k + " " + d)[1..] == d;
    } else {
      assert (k + " " + d)[1..] == k[1..] + " " + d;
      SplitKeyAt(k[1..], d);
      assert [k[0]] + k[1..] == k;
    }
  }

  /** The characters PCRE's `\s` matches. */
  predicate IsSpace(c: char) {
    c == ' ' || c == '\t' || c == '\n' || c == '\U{B}' || c == '\U{C}' || c == '\r'
  }

  function SkipSpace(s: string): (r: string)
    ensures |r| > 0 ==> !IsSpace(r[0])
    decreases |s|
  {
    if |s| > 0 && IsSpace(s[0]) then SkipSpace(s[1..]) else s
  }

  /** The words of a flags line: the data split at commas, dropping the white
      space that follows each comma. */
  function FlagWords(data: string): (ws: seq<string>)
    ensures |ws| >= 1
  {
    var parts := Split(data, ',');
    [parts[0]] + seq(|parts| - 1, i requires 0 <= i < |parts| - 1 => SkipSpace(parts[i + 1]))
  }

  predicate HasFuzzyFlag(data: string) {
    "fuzzy" in FlagWords(data)
  }

  // ---------------------------------------------------------------------------
  // The state machine

  datatype LineKind = Flags | Comment | Keyword(field: Field) | Continues

  /** What a line does, by its key (the `switch`). A key that merely contains
      `msgstr[` adds a translated form like `msgstr` does. */
  function Classify(key: string): LineKind {
    if key == "#," then Flags
    else if key == "#" || key == "#." || key == "#:" || key == "#|" then Comment
    else if key == "msgctxt" then Keyword(Msgctxt)
    else if key == "msgid" then Keyword(Msgid)
    else if key == "msgid_plural" then Keyword(MsgidPlural)
    else if key == "msgstr" || Contains(key, "msgstr[") then Keyword(Msgstr)
    else Continues
  }

  /** A keyword line: msgctxt, msgid and msgid_plural are set to `data`,
      overwriting any earlier value; msgstr gets `data` appended as its next
      form. */
  function Assign(t: Pending, f: Field, data: string): Pending {
    match f
    case Msgctxt => t.(msgctxt := Some(data))
    case Msgid => t.(msgid := Some(data))
    case MsgidPlural => t.(msgidPlural := Some(data))
    case Msgstr => t.(msgstr := Some(t.msgstr.GetOr([]) + [data]))
  }

  function AppendToLast(forms: seq<string>, more: string): seq<string> {
    if |forms| == 0 then [more] else forms[..|forms| - 1] + [forms[|forms| - 1] + more]
  }

  /** A continuation line: `more` is appended to the active field, or to the
      last translated form when that field is msgstr. (A missing field reads as
      the empty string, as PHP's `.=` does; the scanner never relies on it.) */
  function Extend(t: Pending, f: Field, more: string): Pending {
    match f
    case Msgctxt => t.(msgctxt := Some(t.msgctxt.GetOr("") + more))
    case Msgid => t.(msgid := Some(t.msgid.GetOr("") + more))
    case MsgidPlural => t.(msgidPlural := Some(t.msgidPlural.GetOr("") + more))
    case Msgstr => t.(msgstr := Some(AppendToLast(t.msgstr.GetOr([]), more)))
  }

  predicate Complete(t: Pending) {
    t.msgid.Some? && t.msgstr.Some?
  }

  /** What a comment line does once the fuzzy flag is settled: a pending entry
      with both msgid and msgstr is closed (kept unless fuzzy) and the scanner
      resets; otherwise nothing happens. */
  function Delimit(sc: Scanner): Scanner {
    if Complete(sc.temp) then
      Scanner(if sc.fuzzy then sc.found else sc.found + [sc.temp], NoEntry, None, false)
    else sc
  }

  /** One trimmed, non-blank line; `None` is the parse error of a continuation
      line while no field is active. */
  function Step(sc: Scanner, line: string): (r: Option<Scanner>)
    ensures r.None? <==> sc.state.None? && Classify(SplitKey(line).0) == Continues
    ensures r.Some? ==> r.value.found == sc.found || (Complete(sc.temp) && r.value.found == sc.found + [sc.temp])
  {
    var (key, data) := SplitKey(line);
    match Classify(key)
    case Flags => Some(Delimit(sc.(fuzzy := HasFuzzyFlag(data))))
    case Comment => Some(Delimit(sc))
    case Keyword(f) => Some(sc.(temp := Assign(sc.temp, f, data), state := Some(f)))
    case Continues =>
      if sc.state.None? then None
      else Some(sc.(temp := Extend(sc.temp, sc.state.value, "\n" + line)))
  }

  /** Every line in turn; entries once kept are never taken back. */
  function Scan(sc: Scanner, lines: seq<string>): (r: Option<Scanner>)
    ensures r.Some? ==> sc.found <= r.value.found
    decreases |lines|
  {
    if |lines| == 0 then Some(sc)
    else
      match Step(sc, lines[0])
      case None => None
      case Some(next) => Scan(next, lines[1..])
  }

  /** End of input: the pending entry is kept exactly when the active field is
      msgstr; the fuzzy flag is not consulted. */
  function Finish(sc: Scanner): (r: seq<Pending>)
    ensures sc.found <= r && |r| <= |sc.found| + 1
    ensures |r| > |sc.found| <==> sc.state == Some(Msgstr)
    ensures |r| > |sc.found| ==> r[|sc.found|] == sc.temp
  {
    if sc.state == Some(Msgstr) then sc.found + [sc.temp] else sc.found
  }

  // ---------------------------------------------------------------------------
  // Cleaning and keying

  function CleanField(v: Option<string>): Option<Option<string>> {
    match v
    case None => Some(None)
    case Some(x) =>
      match Cleaner.Clean(x)
      case None => None
      case Some(y) => Some(Some(y))
  }

  predicate Cleans(v: Option<string>) {
    v.None? || Cleaner.Clean(v.value).Some?
  }

  predicate CleansAll(p: Pending) {
    Cleans(p.msgctxt) && Cleans(p.msgid) && Cleans(p.msgidPlural)
  }

  /** The cleaned entry. A failed form becomes the empty string: PHP 5 stores
      the `false` of the failed `eval` in the array, and only a whole field
      equal to `false` aborts. A missing msgid is PHP's null, which acts as
      the empty string. */
  function CleanPending(p: Pending): (r: Option<Entry>)
    ensures r.Some? <==> CleansAll(p)
    ensures r.Some? ==>
              && (p.msgctxt.None? ==> r.value.msgctxt.None?)
              && (p.msgctxt.Some? ==> r.value.msgctxt == Cleaner.Clean(p.msgctxt.value))
              && (p.msgid.None? ==> r.value.msgid == "")
              && (p.msgid.Some? ==> Some(r.value.msgid) == Cleaner.Clean(p.msgid.value))
              && (p.msgidPlural.None? ==> r.value.msgidPlural.None?)
              && (p.msgidPlural.Some? ==> r.value.msgidPlural == Cleaner.Clean(p.msgidPlural.value))
    ensures r.Some? ==>
              && |r.value.msgstr| == |p.msgstr.GetOr([])|
              && forall i :: 0 <= i < |r.value.msgstr| ==> r.value.msgstr[i] == Cleaner.Clean(p.msgstr.value[i]).GetOr("")
  {
    var ctxt :- CleanField(p.msgctxt);
    var id :- CleanField(p.msgid);
    var plural :- CleanField(p.msgidPlural);
    var forms := p.msgstr.GetOr([]);
    Some(Entry(ctxt, id.GetOr(""), plural, seq(|forms|, i requires 0 <= i < |forms| => Cleaner.Clean(forms[i]).GetOr(""))))
  }

  /** Every collected entry cleaned; one field that fails to clean fails all. */
  function CleanAll(ps: seq<Pending>): (r: Option<seq<Entry>>)
    ensures r.Some? <==> forall i :: 0 <= i < |ps| ==> CleansAll(ps[i])
    ensures r.Some? ==> |r.value| == |ps| && forall i :: 0 <= i < |ps| ==> Some(r.value[i]) == CleanPending(ps[i])
  {
    if |ps| == 0 then Some([])
    else
      match CleanPending(ps[0])
      case None => None
      case Some(e) =>
        match CleanAll(ps[1..])
        case None => None
        case Some(rest) => Some([e] + rest)
  }

  /** The last entry of `es` whose msgid is `k`. */
  function LastWith(es: seq<Entry>, k: string): Option<Entry> {
    if |es| == 0 then None
    else if es[|es| - 1].msgid == k then Some(es[|es| - 1])
    else LastWith(es[..|es| - 1], k)
  }

  /** Each entry in turn stored under its msgid: msgids are
      distinct and each finds the last entry that carried it. */
  function Build(es: seq<Entry>): (c: seq<Entry>)
    ensures DistinctMsgids(c)
    ensures forall k :: Find(c, k) == LastWith(es, k)
    ensures forall e :: e in c ==> e in es
  {
    if |es| == 0 then []
    else Put(Build(es[..|es| - 1]), es[|es| - 1])
  }

  /** `_poParser` on the contents of a readable file. Every catalog it
      returns has distinct msgids, and every entry in it has at least one
      translated form. */
  function Parse(text: string): (r: Option<seq<Entry>>)
    ensures r.Some? ==> DistinctMsgids(r.value)
    ensures r.Some? ==> forall e :: e in r.value ==> |e.msgstr| >= 1
  {
    var sc :- Scan(Start, Prepare(text));
    ScanKeepsWellFormed(Start, Prepare(text));
    FinishHasForms(sc);
    var es :- CleanAll(Finish(sc));
    CleanedHaveForms(Finish(sc));
    Some(Build(es))
  }

  // ---------------------------------------------------------------------------
  // Properties of the state machine

  predicate FormsPresent(t: Pending) {
    t.msgstr.Some? ==> |t.msgstr.value| >= 1
  }

  predicate Holds(t: Pending, f: Field) {
    match f
    case Msgctxt => t.msgctxt.Some?
    case Msgid => t.msgid.Some?
    case MsgidPlural => t.msgidPlural.Some?
    case Msgstr => t.msgstr.Some?
  }

  /** The scanner invariant: the active field is present in the pending entry,
      a present msgstr has at least one form, and every entry kept so far has
      a msgid and at least one form. */
  predicate WellFormed(sc: Scanner) {
    && FormsPresent(sc.temp)
    && (sc.state.Some? ==> Holds(sc.temp, sc.state.value))
    && forall i :: 0 <= i < |sc.found| ==> Complete(sc.found[i]) && FormsPresent(sc.found[i])
  }

  lemma {:induction false} StepKeepsWellFormed(sc: Scanner, line: string)
    requires WellFormed(sc) && Step(sc, line).Some?
    ensures WellFormed(Step(sc, line).value)
  {
  }

  lemma {:induction false} ScanKeepsWellFormed(sc: Scanner, lines: seq<string>)
    requires WellFormed(sc) && Scan(sc, lines).Some?
    ensures WellFormed(Scan(sc, lines).value)
    decreases |lines|
  {
    if |lines| > 0 {
      StepKeepsWellFormed(sc, lines[0]);
      ScanKeepsWellFormed(Step(sc, lines[0]).value, lines[1..]);
    }
  }

  /** The entries collected at end of input all carry at least one form. */
  lemma {:induction false} FinishHasForms(sc: Scanner)
    requires WellFormed(sc)
    ensures forall i :: 0 <= i < |Finish(sc)| ==> Finish(sc)[i].msgstr.Some? && |Finish(sc)[i].msgstr.value| >= 1
  {
  }

  lemma {:induction false} CleanedHaveForms(ps: seq<Pending>)
    requires forall i :: 0 <= i < |ps| ==> ps[i].msgstr.Some? && |ps[i].msgstr.value| >= 1
    requires CleanAll(ps).Some?
    ensures forall e :: e in CleanAll(ps).value ==> |e.msgstr| >= 1
  {
    var es := CleanAll(ps).value;
    forall e | e in es
      ensures |e.msgstr| >= 1
    {
      var i :| 0 <= i < |es| && es[i] == e;
      assert Some(es[i]) == CleanPending(ps[i]);
    }
  }

  /** A continuation line extends the active field by LF and the whole line;
      under msgstr it extends the last form. Nothing else changes. */
  lemma {:induction false} ContinuationExtends(sc: Scanner, line: string)
    requires WellFormed(sc) && sc.state.Some?
    requires Classify(SplitKey(line).0) == Continues
    ensures Step(sc, line).Some?
    ensures var next := Step(sc, line).value;
      && next.found == sc.found && next.state == sc.state && next.fuzzy == sc.fuzzy
      && (sc.state == Some(Msgctxt) ==> next.temp == sc.temp.(msgctxt := Some(sc.temp.msgctxt.value + ("\n" + line))))
      && (sc.state == Some(Msgid) ==> next.temp == sc.temp.(msgid := Some(sc.temp.msgid.value + ("\n" + line))))
      && (sc.state == Some(MsgidPlural) ==> next.temp == sc.temp.(msgidPlural := Some(sc.temp.msgidPlural.value + ("\n" + line))))
      && (sc.state == Some(Msgstr) ==>
            var forms := sc.temp.msgstr.value;
            var n := |forms|;
            next.temp == sc.temp.(msgstr := Some(forms[..n - 1] + [forms[n - 1] + ("\n" + line)])))
  {
    var (key, data) := SplitKey(line);
    assert Step(sc, line) == Some(sc.(temp := Extend(sc.temp, sc.state.value, "\n" + line)));
  }

  /** Scanning is a fold: scanning `a + b` scans `a`, then `b` from there. */
  lemma {:induction false} ScanSplit(sc: Scanner, a: seq<string>, b: seq<string>)
    ensures Scan(sc, a + b) == (match Scan(sc, a) case None => None case Some(mid) => Scan(mid, b))
    decreases |a|
  {
    if |a| == 0 {
      assert a + b == b;
    } else {
      assert (a + b)[1..] == a[1..] + b;
      if Step(sc, a[0]).Some? {
        ScanSplit(Step(sc, a[0]).value, a[1..], b);
      }
    }
  }

  lemma {:induction false} ScanStops(sc: Scanner, lines: seq<string>)
    requires |lines| > 0 && Step(sc, lines[0]).None?
    ensures Scan(sc, lines) == None
  {
  }

  /** A continuation line met while no field is active makes the whole parse
      fail: no catalog is produced. */
  lemma {:induction false} OrphanContinuationFails(text: string, k: nat)
    requires k < |Prepare(text)|
    requires Scan(Start, Prepare(text)[..k]).Some?
    requires Scan(Start, Prepare(text)[..k]).value.state.None?
    requires Classify(SplitKey(Prepare(text)[k]).0) == Continues
    ensures Parse(text) == None
  {
    var lines := Prepare(text);
    OrphanStep(Scan(Start, lines[..k]).value, lines[k]);
    ScanFailsAt(lines, k);
  }

  /** With no field active, a continuation line is refused. */
  lemma {:induction false} OrphanStep(sc: Scanner, line: string)
    requires sc.state.None? && Classify(SplitKey(line).0) == Continues
    ensures Step(sc, line) == None
  {
  }

  /** A scan that reaches line `k` and is refused there fails as a whole. */
  lemma {:induction false} ScanFailsAt(lines: seq<string>, k: nat)
    requires k < |lines| && Scan(Start, lines[..k]).Some?
    requires Step(Scan(Start, lines[..k]).value, lines[k]).None?
    ensures Scan(Start, lines) == None
  {
    var mid := Scan(Start, lines[..k]).value;
    assert lines == lines[..k] + lines[k..];
    ScanSplit(Start, lines[..k], lines[k..]);
    assert lines[k..][0] == lines[k];
    ScanStops(mid, lines[k..]);
  }

  /** A comment line closes a pending entry that has msgid and msgstr (kept
      unless the fuzzy flag is set) and resets the scanner; with an incomplete
      entry it changes nothing. A `#,` line first recomputes the fuzzy flag
      from its own flags. */
  lemma {:induction false} DelimiterLine(sc: Scanner, line: string)
    requires Classify(SplitKey(line).0) in {Flags, Comment}
    ensures var fuzzy := if Classify(SplitKey(line).0) == Flags then HasFuzzyFlag(SplitKey(line).1) else sc.fuzzy;
      && (Complete(sc.temp) ==>
            Step(sc, line) == Some(Scanner(if fuzzy then sc.found else sc.found + [sc.temp], NoEntry, None, false)))
      && (!Complete(sc.temp) ==> Step(sc, line) == Some(sc.(fuzzy := fuzzy)))
  {
  }

  lemma {:induction false} FuzzyLine()
    ensures SplitKey("#, fuzzy") == ("#,", "fuzzy")
    ensures HasFuzzyFlag("fuzzy")
  {
    FuzzyLineKey();
    FuzzyFlag();
  }

  lemma {:induction false} FuzzyLineKey()
    ensures SplitKey("#, fuzzy") == ("#,", "fuzzy")
  {
    assert "#, fuzzy" == "#," + " " + "fuzzy";
    SplitKeyAt("#,", "fuzzy");
  }

  lemma {:induction false} FuzzyFlag()
    ensures HasFuzzyFlag("fuzzy")
  {
    SplitAfterPiece("fuzzy", ',', []);
    assert FlagWords("fuzzy") == ["fuzzy"];
  }

  /** `#, fuzzy` right after a complete entry discards that entry, and the flag
      does not carry over to the next one. */
  lemma {:induction false} FuzzyAfterCompleteEntry(sc: Scanner)
    requires Complete(sc.temp)
    ensures Step(sc, "#, fuzzy") == Some(Scanner(sc.found, NoEntry, None, false))
  {
    FuzzyLine();
  }

  /** A keyword line sets its field (a msgstr line appends a form) and makes
      it the active one; the kept entries and the fuzzy flag stay as they are. */
  lemma {:induction false} KeywordLine(sc: Scanner, line: string, f: Field)
    requires Classify(SplitKey(line).0) == Keyword(f)
    ensures Step(sc, line) == Some(sc.(temp := Assign(sc.temp, f, SplitKey(line).1), state := Some(f)))
  {
  }

  lemma {:induction false} ScanCons(sc: Scanner, line: string, rest: seq<string>, next: Scanner)
    requires Step(sc, line) == Some(next)
    ensures Scan(sc, [line] + rest) == Scan(next, rest)
  {
    assert ([line] + rest)[0] == line && ([line] + rest)[1..] == rest;
  }

  /** A fuzzy entry as three lines: a `#,` line whose flags include `fuzzy`
      (`#, fuzzy` is one, see `FuzzyLine`), a msgid line and a msgstr line. */
  predicate FuzzyEntry(entry: seq<string>) {
    && |entry| == 3
    && Classify(SplitKey(entry[0]).0) == Flags && HasFuzzyFlag(SplitKey(entry[0]).1)
    && Classify(SplitKey(entry[1]).0) == Keyword(Msgid)
    && Classify(SplitKey(entry[2]).0) == Keyword(Msgstr)
  }

  /** The pending entry the msgid and msgstr lines of `entry` describe. */
  function EntryOf(entry: seq<string>): Pending
    requires |entry| == 3
  {
    Pending(None, Some(SplitKey(entry[1]).1), None, Some([SplitKey(entry[2]).1]))
  }

  /** The three lines of a fuzzy entry, read from a fresh pending entry. */
  lemma {:induction false} FuzzyEntryLines(sc: Scanner, entry: seq<string>)
    requires sc.temp == NoEntry && FuzzyEntry(entry)
    ensures Scan(sc, entry) == Some(sc.(temp := EntryOf(entry), state := Some(Msgstr), fuzzy := true))
  {
    var flag, idLine, strLine := entry[0], entry[1], entry[2];
    var s1 := sc.(fuzzy := true);
    var s2 := s1.(temp := Assign(s1.temp, Msgid, SplitKey(idLine).1), state := Some(Msgid));
    var s3 := s2.(temp := Assign(s2.temp, Msgstr, SplitKey(strLine).1), state := Some(Msgstr));
    ScanCons(s2, strLine, [], s3);
    assert [strLine] + [] == [strLine];
    assert Scan(s2, [strLine]) == Some(s3);
    ScanCons(s1, idLine, [strLine], s2);
    assert [idLine] + [strLine] == [idLine, strLine];
    assert Scan(s1, [idLine, strLine]) == Some(s3);
    ScanCons(sc, flag, [idLine, strLine], s1);
    assert [flag] + [idLine, strLine] == entry;
    assert Scan(sc, entry) == Some(s3);
    AssignFresh(SplitKey(idLine).1, SplitKey(strLine).1);
  }

  lemma {:induction false} AssignFresh(id: string, str: string)
    ensures Assign(Assign(NoEntry, Msgid, id), Msgstr, str) == Pending(None, Some(id), None, Some([str]))
  {
    assert [] + [str] == [str];
  }

  /** An entry flagged fuzzy ahead of it is dropped when a plain comment line
      follows it ... */
  lemma {:induction false} FuzzyEntryDropped(sc: Scanner, entry: seq<string>, comment: string)
    requires sc.temp == NoEntry && FuzzyEntry(entry)
    requires Classify(SplitKey(comment).0) == Comment
    ensures Scan(sc, entry + [comment]) == Some(Scanner(sc.found, NoEntry, None, false))
  {
    FuzzyEntryLines(sc, entry);
    var s3 := Scan(sc, entry).value;
    DelimiterLine(s3, comment);
    ScanSnoc(sc, entry, comment, s3, Scanner(sc.found, NoEntry, None, false));
  }

  /** ... and kept when the next delimiter is a `#,` line without `fuzzy`: that
      line clears the flag before the entry is closed ... */
  lemma {:induction false} FuzzyEntryRescued(sc: Scanner, entry: seq<string>, flags: string)
    requires sc.temp == NoEntry && FuzzyEntry(entry)
    requires Classify(SplitKey(flags).0) == Flags && !HasFuzzyFlag(SplitKey(flags).1)
    ensures Scan(sc, entry + [flags]) == Some(Scanner(sc.found + [EntryOf(entry)], NoEntry, None, false))
  {
    FuzzyEntryLines(sc, entry);
    var s3 := Scan(sc, entry).value;
    DelimiterLine(s3, flags);
    ScanSnoc(sc, entry, flags, s3, Scanner(sc.found + [EntryOf(entry)], NoEntry, None, false));
  }

  /** ... and also kept when it is the last entry of the file: at end of input
      the fuzzy flag is not consulted. */
  lemma {:induction false} FuzzyLastEntryKept(sc: Scanner, entry: seq<string>)
    requires sc.temp == NoEntry && FuzzyEntry(entry)
    ensures Scan(sc, entry).Some?
    ensures Finish(Scan(sc, entry).value) == sc.found + [EntryOf(entry)]
  {
    FuzzyEntryLines(sc, entry);
  }

  lemma {:induction false} ScanSnoc(sc: Scanner, lines: seq<string>, line: string, mid: Scanner, next: Scanner)
    requires Scan(sc, lines) == Some(mid) && Step(mid, line) == Some(next)
    ensures Scan(sc, lines + [line]) == Some(next)
  {
    ScanSplit(sc, lines, [line]);
    ScanCons(mid, line, [], next);
    assert [line] + [] == [line];
  }

  // ---------------------------------------------------------------------------
  // A whole file

  /** `s` PO-quoted between two quotes, as a PO editor writes a field. */
  function Quoted(s: string): string {
    "\"" + Cleaner.PoQuote(s) + "\""
  }

  /** The line `key "..."` of a field written on one line. */
  function QuotedLine(key: string, s: string): string {
    key + " " + Quoted(s)
  }

  lemma {:induction false} QuotedShape(s: string)
    requires '\r' !in s
    ensures var d := Quoted(s);
      |d| >= 2 && d[|d| - 1] == '"' && '\n' !in d && '\r' !in d
  {
    Cleaner.PoQuoteHasNoNewline(s);
    Cleaner.PoQuoteAdds(s, '\r');
  }

  /** A keyword, a space and data without line breaks make a line the state
      machine sees whole, and whose key and data are those two parts. */
  lemma {:induction false} KeyedLine(key: string, d: string)
    requires |key| > 0 && !IsBlank(key[0]) && ' ' !in key && '\n' !in key && '\r' !in key
    requires |d| > 0 && !IsBlank(d[|d| - 1]) && '\n' !in d && '\r' !in d
    ensures var line := key + " " + d;
      IsTrimmedLine(line) && '\n' !in line && '\r' !in line && SplitKey(line) == (key, d)
  {
    var line := key + " " + d;
    SplitKeyAt(key, d);
    assert line[0] == key[0] && line[|line| - 1] == d[|d| - 1];
  }

  /** The two lines of a file holding one simple entry reach the state machine
      unchanged. */
  lemma {:induction false} TwoLines(a: string, b: string)
    requires IsTrimmedLine(a) && IsTrimmedLine(b)
    requires '\n' !in a && '\n' !in b && '\r' !in a && '\r' !in b
    ensures Prepare(a + "\n" + b) == [a, b]
  {
    var text := a + "\n" + b;
    assert '\r' !in text;
    assert Normalize(text) == text;
    SplitAfterPiece(a, '\n', b);
    SplitAfterPiece(b, '\n', []);
    assert Split(text, '\n') == [a, b];
    TrimUntouched(a);
    TrimUntouched(b);
    KeepLinesAppend([a], [b]);
    KeepLinesOne(a);
    KeepLinesOne(b);
    assert [a] + [b] == [a, b];
  }

  /** A msgid line and a msgstr line leave one pending entry, with msgstr active. */
  lemma {:induction false} ScanSimpleEntry(idLine: string, strLine: string)
    requires Classify(SplitKey(idLine).0) == Keyword(Msgid)
    requires Classify(SplitKey(strLine).0) == Keyword(Msgstr)
    ensures Scan(Start, [idLine, strLine])
            == Some(Scanner([], Pending(None, Some(SplitKey(idLine).1), None, Some([SplitKey(strLine).1])), Some(Msgstr), false))
  {
    var s1 := Start.(temp := Assign(NoEntry, Msgid, SplitKey(idLine).1), state := Some(Msgid));
    var s2 := s1.(temp := Assign(s1.temp, Msgstr, SplitKey(strLine).1), state := Some(Msgstr));
    KeywordLine(Start, idLine, Msgid);
    KeywordLine(s1, strLine, Msgstr);
    ScanCons(s1, strLine, [], s2);
    assert [strLine] + [] == [strLine];
    ScanCons(Start, idLine, [strLine], s1);
    assert [idLine] + [strLine] == [idLine, strLine];
    AssignFresh(SplitKey(idLine).1, SplitKey(strLine).1);
  }

  /** Parsing is scanning, the end-of-input rule, cleaning and keying. */
  lemma {:induction false} ParseOf(text: string, sc: Scanner, es: seq<Entry>)
    requires Scan(Start, Prepare(text)) == Some(sc) && CleanAll(Finish(sc)) == Some(es)
    ensures Parse(text) == Some(Build(es))
  {
  }

  /** The pending entry of two quoted fields cleans to the quoted strings. */
  lemma {:induction false} CleanSimpleEntry(s: string, t: string)
    ensures CleanAll([Pending(None, Some(Quoted(s)), None, Some([Quoted(t)]))]) == Some([Entry(None, s, None, [t])])
  {
    Cleaner.CleanQuoted(s);
    Cleaner.CleanQuoted(t);
    var p := Pending(None, Some(Quoted(s)), None, Some([Quoted(t)]));
    var e := Entry(None, s, None, [t]);
    assert CleanField(p.msgid) == Some(Some(s));
    assert CleanPending(p).value.msgstr == [t];
    assert CleanPending(p) == Some(e);
    assert [p][1..] == [];
    assert CleanAll([p]) == Some([e] + []);
    assert [e] + [] == [Entry(None, s, None, [t])];
  }

  /** A file whose lines are a msgid line and a msgstr line parses to its
      one entry, cleaned. */
  lemma {:induction false} ParseTwoLines(text: string, idLine: string, strLine: string, e: Entry)
    requires Prepare(text) == [idLine, strLine]
    requires Classify(SplitKey(idLine).0) == Keyword(Msgid)
    requires Classify(SplitKey(strLine).0) == Keyword(Msgstr)
    requires CleanAll([Pending(None, Some(SplitKey(idLine).1), None, Some([SplitKey(strLine).1]))]) == Some([e])
    ensures Parse(text) == Some([e])
  {
    ScanSimpleEntry(idLine, strLine);
    var p := Pending(None, Some(SplitKey(idLine).1), None, Some([SplitKey(strLine).1]));
    var sc := Scanner([], p, Some(Msgstr), false);
    assert Finish(sc) == [p];
    assert Build([e]) == [e] by {
      assert [e][..0] == [];
    }
    ParseOf(text, sc, [e]);
  }

  lemma {:induction false} KeywordsOfSimpleEntry()
    ensures Classify("msgid") == Keyword(Msgid) && Classify("msgstr") == Keyword(Msgstr)
    ensures !IsBlank('m') && ' ' !in "msgid" && '\n' !in "msgid" && '\r' !in "msgid"
    ensures ' ' !in "msgstr" && '\n' !in "msgstr" && '\r' !in "msgstr"
  {
  }

  /** The lines of a file holding one simple entry, and their keys and data. */
  lemma {:induction false} SimpleEntryLines(s: string, t: string)
    requires '\r' !in s && '\r' !in t
    ensures Prepare(QuotedLine("msgid", s) + "\n" + QuotedLine("msgstr", t)) == [QuotedLine("msgid", s), QuotedLine("msgstr", t)]
    ensures SplitKey(QuotedLine("msgid", s)) == ("msgid", Quoted(s))
    ensures SplitKey(QuotedLine("msgstr", t)) == ("msgstr", Quoted(t))
  {
    KeywordsOfSimpleEntry();
    QuotedShape(s);
    QuotedShape(t);
    KeyedLine("msgid", Quoted(s));
    KeyedLine("msgstr", Quoted(t));
    TwoLines(QuotedLine("msgid", s), QuotedLine("msgstr", t));
  }

  /** A file holding one simple entry, `msgid "..."` then `msgstr "..."`,
      parses to that entry, with msgid and translation decoded back to the
      strings that were quoted. */
  lemma {:induction false} ParseSimpleEntry(s: string, t: string)
    requires '\r' !in s && '\r' !in t
    ensures Parse(QuotedLine("msgid", s) + "\n" + QuotedLine("msgstr", t)) == Some([Entry(None, s, None, [t])])
  {
    KeywordsOfSimpleEntry();
    SimpleEntryLines(s, t);
    CleanSimpleEntry(s, t);
    ParseTwoLines(QuotedLine("msgid", s) + "\n" + QuotedLine("msgstr", t), QuotedLine("msgid", s), QuotedLine("msgstr", t),
                  Entry(None, s, None, [t]));
  }
  /** A line the state machine sees whole, then a line break, reaches the
      state machine ahead of whatever lines follow. */
  lemma {:induction false} LineBefore(a: string, rest: string)
    requires IsTrimmedLine(a) && '\n' !in a && '\r' !in a && '\r' !in rest
    ensures Prepare(a + "\n" + rest) == [a] + Prepare(rest)
  {
    var text := a + "\n" + rest;
    assert '\r' !in text;
    SplitAfterPiece(a, '\n', rest);
    TrimUntouched(a);
    KeepLinesOne(a);
    KeepLinesAppend([a], Split(rest, '\n'));
  }

  /** A last line the state machine sees whole reaches it unchanged. */
  lemma {:induction false} LastLine(a: string)
    requires IsTrimmedLine(a) && '\n' !in a && '\r' !in a
    ensures Prepare(a) == [a]
  {
    SplitAfterPiece(a, '\n', []);
    TrimUntouched(a);
    KeepLinesOne(a);
  }

  /** Two keyword lines assign their fields in order; the second field is
      left active. */
  lemma {:induction false} ScanTwoKeywords(sc: Scanner, a: string, f: Field, b: string, g: Field)
    requires Classify(SplitKey(a).0) == Keyword(f) && Classify(SplitKey(b).0) == Keyword(g)
    ensures Scan(sc, [a, b])
            == Some(sc.(temp := Assign(Assign(sc.temp, f, SplitKey(a).1), g, SplitKey(b).1), state := Some(g)))
  {
    var s1 := sc.(temp := Assign(sc.temp, f, SplitKey(a).1), state := Some(f));
    var s2 := s1.(temp := Assign(s1.temp, g, SplitKey(b).1), state := Some(g));
    KeywordLine(sc, a, f);
    KeywordLine(s1, b, g);
    ScanCons(s1, b, [], s2);
    assert [b] + [] == [b];
    ScanCons(sc, a, [b], s1);
    assert [a] + [b] == [a, b];
  }

  /** msgid, msgid_plural and two msgstr lines leave one pending entry with
      both forms, in order, and msgstr active. */
  lemma {:induction false} ScanPluralEntry(idLine: string, pluralLine: string, line0: string, line1: string)
    requires Classify(SplitKey(idLine).0) == Keyword(Msgid)
    requires Classify(SplitKey(pluralLine).0) == Keyword(MsgidPlural)
    requires Classify(SplitKey(line0).0) == Keyword(Msgstr)
    requires Classify(SplitKey(line1).0) == Keyword(Msgstr)
    ensures Scan(Start, [idLine, pluralLine, line0, line1])
            == Some(Scanner([], Pending(None, Some(SplitKey(idLine).1), Some(SplitKey(pluralLine).1),
                                        Some([SplitKey(line0).1, SplitKey(line1).1])), Some(Msgstr), false))
  {
    var t := Pending(None, Some(SplitKey(idLine).1), Some(SplitKey(pluralLine).1), None);
    var mid := Scanner([], t, Some(MsgidPlural), false);
    ScanTwoKeywords(Start, idLine, Msgid, pluralLine, MsgidPlural);
    ScanTwoKeywords(mid, line0, Msgstr, line1, Msgstr);
    assert Assign(Assign(t, Msgstr, SplitKey(line0).1), Msgstr, SplitKey(line1).1).msgstr
           == Some([] + [SplitKey(line0).1] + [SplitKey(line1).1]);
    assert [] + [SplitKey(line0).1] + [SplitKey(line1).1] == [SplitKey(line0).1, SplitKey(line1).1];
    ScanSplit(Start, [idLine, pluralLine], [line0, line1]);
    assert [idLine, pluralLine] + [line0, line1] == [idLine, pluralLine, line0, line1];
  }

  /** A pending msgid, plural and two forms that each clean give the entry of
      the cleaned strings, forms in order. */
  lemma {:induction false} CleanPluralFields(id: string, plural: string, f0: string, f1: string,
                                             s: string, p: string, t0: string, t1: string)
    requires Cleaner.Clean(id) == Some(s) && Cleaner.Clean(plural) == Some(p)
    requires Cleaner.Clean(f0) == Some(t0) && Cleaner.Clean(f1) == Some(t1)
    ensures CleanPending(Pending(None, Some(id), Some(plural), Some([f0, f1]))) == Some(Entry(None, s, Some(p), [t0, t1]))
  {
    var pe := Pending(None, Some(id), Some(plural), Some([f0, f1]));
    assert CleansAll(pe);
    var r := CleanPending(pe).value;
    assert r.msgstr[0] == t0 && r.msgstr[1] == t1;
    assert r.msgstr == [t0, t1];
  }

  /** The pending entry of a quoted msgid, plural and two forms cleans to the
      quoted strings. */
  lemma {:induction false} CleanPluralPending(s: string, p: string, t0: string, t1: string)
    ensures CleanPending(Pending(None, Some(Quoted(s)), Some(Quoted(p)), Some([Quoted(t0), Quoted(t1)])))
            == Some(Entry(None, s, Some(p), [t0, t1]))
  {
    Cleaner.CleanQuoted(s);
    Cleaner.CleanQuoted(p);
    Cleaner.CleanQuoted(t0);
    Cleaner.CleanQuoted(t1);
    CleanPluralFields(Quoted(s), Quoted(p), Quoted(t0), Quoted(t1), s, p, t0, t1);
  }

  /** A single collected entry cleans as `CleanPending` cleans it. */
  lemma {:induction false} CleanOne(pe: Pending, e: Entry)
    requires CleanPending(pe) == Some(e)
    ensures CleanAll([pe]) == Some([e])
  {
    assert [pe][1..] == [];
    assert [e] + [] == [e];
  }

  /** A file whose lines are msgid, msgid_plural and two msgstr lines parses
      to its one entry, cleaned. */
  lemma {:induction false} ParseFourLines(text: string, idLine: string, pluralLine: string, line0: string, line1: string, e: Entry)
    requires Prepare(text) == [idLine, pluralLine, line0, line1]
    requires Classify(SplitKey(idLine).0) == Keyword(Msgid)
    requires Classify(SplitKey(pluralLine).0) == Keyword(MsgidPlural)
    requires Classify(SplitKey(line0).0) == Keyword(Msgstr)
    requires Classify(SplitKey(line1).0) == Keyword(Msgstr)
    requires CleanAll([Pending(None, Some(SplitKey(idLine).1), Some(SplitKey(pluralLine).1),
                               Some([SplitKey(line0).1, SplitKey(line1).1]))]) == Some([e])
    ensures Parse(text) == Some([e])
  {
    ScanPluralEntry(idLine, pluralLine, line0, line1);
    var p := Pending(None, Some(SplitKey(idLine).1), Some(SplitKey(pluralLine).1),
                     Some([SplitKey(line0).1, SplitKey(line1).1]));
    var sc := Scanner([], p, Some(Msgstr), false);
    assert Finish(sc) == [p];
    assert Build([e]) == [e] by {
      assert [e][..0] == [];
    }
    ParseOf(text, sc, [e]);
  }

  /** A keyword as it opens a field line: non-empty, not starting with a
      blank, and free of spaces and line breaks. */
  predicate IsKeyword(key: string) {
    |key| > 0 && !IsBlank(key[0]) && ' ' !in key && '\n' !in key && '\r' !in key
  }

  lemma {:induction false} KeywordsOfPluralEntry()
    ensures Classify("msgid") == Keyword(Msgid) && Classify("msgid_plural") == Keyword(MsgidPlural)
    ensures Classify("msgstr[0]") == Keyword(Msgstr) && Classify("msgstr[1]") == Keyword(Msgstr)
  {
    assert Contains("msgstr[0]", "msgstr[") by {
      assert "msgstr[" <= "msgstr[0]";
    }
    assert Contains("msgstr[1]", "msgstr[") by {
      assert "msgstr[" <= "msgstr[1]";
    }
  }

  lemma {:induction false} KeywordsArePlain()
    ensures IsKeyword("msgid") && IsKeyword("msgid_plural") && IsKeyword("msgstr[0]") && IsKeyword("msgstr[1]")
  {
  }

  /** Four field lines joined by line breaks reach the state machine
      unchanged. */
  lemma {:induction false} FourFieldLines(a: string, b: string, c: string, d: string)
    requires IsTrimmedLine(a) && '\n' !in a && '\r' !in a
    requires IsTrimmedLine(b) && '\n' !in b && '\r' !in b
    requires IsTrimmedLine(c) && '\n' !in c && '\r' !in c
    requires IsTrimmedLine(d) && '\n' !in d && '\r' !in d
    ensures Prepare(Join([a, b, c, d], '\n')) == [a, b, c, d]
  {
    var ls := [a, b, c, d];
    assert WholeLine(a) && WholeLine(b) && WholeLine(c) && WholeLine(d);
    forall i | 0 <= i < |ls|
      ensures WholeLine(ls[i])
    {
    }
    PrepareJoin(ls);
  }

  /** One field line of a file: the state machine sees it whole, with the
      keyword as key and the quoted string as data. */
  lemma {:induction false} FieldLine(key: string, s: string)
    requires IsKeyword(key) && '\r' !in s
    ensures var line := QuotedLine(key, s);
      IsTrimmedLine(line) && '\n' !in line && '\r' !in line && SplitKey(line) == (key, Quoted(s))
  {
    QuotedShape(s);
    KeyedLine(key, Quoted(s));
  }

  /** A line the state machine sees whole and that holds no line break. */
  predicate WholeLine(s: string) {
    IsTrimmedLine(s) && '\n' !in s && '\r' !in s
  }

  /** Lines the state machine sees whole, joined by line breaks, reach it
      unchanged. */
  lemma {:induction false} PrepareJoin(ls: seq<string>)
    requires |ls| >= 1
    requires forall i :: 0 <= i < |ls| ==> WholeLine(ls[i])
    ensures Prepare(Join(ls, '\n')) == ls
    decreases |ls|
  {
    if |ls| == 1 {
      LastLine(ls[0]);
    } else {
      PrepareJoin(ls[1..]);
      PrepareJoinCons(ls[0], ls[1..]);
      HeadTail(ls);
    }
  }

  lemma {:induction false} HeadTail<T>(xs: seq<T>)
    requires |xs| > 0
    ensures [xs[0]] + xs[1..] == xs
  {
  }

  /** One more whole line in front of lines that reach the state machine
      unchanged. */
  lemma {:induction false} PrepareJoinCons(a: string, rest: seq<string>)
    requires WholeLine(a) && |rest| >= 1
    requires forall i :: 0 <= i < |rest| ==> WholeLine(rest[i])
    requires Prepare(Join(rest, '\n')) == rest
    ensures Prepare(Join([a] + rest, '\n')) == [a] + rest
  {
    var ls := [a] + rest;
    assert ls[0] == a && ls[1..] == rest;
    assert Join(ls, '\n') == a + "\n" + Join(rest, '\n');
    forall i | 0 <= i < |rest|
      ensures '\r' !in rest[i]
    {
    }
    JoinAvoids(rest, '\n', '\r');
    LineBefore(a, Join(rest, '\n'));
  }

  /** The text of a file holding one plural entry. */
  function PluralEntryText(s: string, p: string, t0: string, t1: string): string {
    Join([QuotedLine("msgid", s), QuotedLine("msgid_plural", p), QuotedLine("msgstr[0]", t0), QuotedLine("msgstr[1]", t1)], '\n')
  }

  /** The four lines of a file holding one plural entry reach the state
      machine unchanged, each split into its keyword and its quoted string. */
  lemma {:induction false} PluralEntryLines(s: string, p: string, t0: string, t1: string)
    requires '\r' !in s && '\r' !in p && '\r' !in t0 && '\r' !in t1
    ensures Prepare(PluralEntryText(s, p, t0, t1))
            == [QuotedLine("msgid", s), QuotedLine("msgid_plural", p), QuotedLine("msgstr[0]", t0), QuotedLine("msgstr[1]", t1)]
    ensures SplitKey(QuotedLine("msgid", s)) == ("msgid", Quoted(s))
    ensures SplitKey(QuotedLine("msgid_plural", p)) == ("msgid_plural", Quoted(p))
    ensures SplitKey(QuotedLine("msgstr[0]", t0)) == ("msgstr[0]", Quoted(t0))
    ensures SplitKey(QuotedLine("msgstr[1]", t1)) == ("msgstr[1]", Quoted(t1))
  {
    KeywordsArePlain();
    FieldLine("msgid", s);
    FieldLine("msgid_plural", p);
    FieldLine("msgstr[0]", t0);
    FieldLine("msgstr[1]", t1);
    FourFieldLines(QuotedLine("msgid", s), QuotedLine("msgid_plural", p), QuotedLine("msgstr[0]", t0), QuotedLine("msgstr[1]", t1));
  }

  /** A file holding one plural entry, `msgid`, `msgid_plural`, `msgstr[0]`
      and `msgstr[1]` in that order, parses to that entry: the plural is kept
      and the forms are collected in the order of their lines. */
  lemma {:induction false} ParsePluralEntry(s: string, p: string, t0: string, t1: string)
    requires '\r' !in s && '\r' !in p && '\r' !in t0 && '\r' !in t1
    ensures Parse(PluralEntryText(s, p, t0, t1)) == Some([Entry(None, s, Some(p), [t0, t1])])
  {
    var lines := [QuotedLine("msgid", s), QuotedLine("msgid_plural", p), QuotedLine("msgstr[0]", t0), QuotedLine("msgstr[1]", t1)];
    var e := Entry(None, s, Some(p), [t0, t1]);
    KeywordsOfPluralEntry();
    PluralEntryLines(s, p, t0, t1);
    CleanPluralPending(s, p, t0, t1);
    CleanOne(Pending(None, Some(Quoted(s)), Some(Quoted(p)), Some([Quoted(t0), Quoted(t1)])), e);
    ParseFourLines(PluralEntryText(s, p, t0, t1), lines[0], lines[1], lines[2], lines[3], e);
  }
}

=== FILE: roundtrip.dfy ===
/** What `_moRead` makes of a file `_moWrite` produced. The reader finds the
    header, both index tables and every key and value where the writer put
    them, in either byte order; for simple entries the cache maps each msgid
    to its translation, and a plural entry comes back as its forms. */
module RoundTrip {

  import opened Wrappers
  import opened Text
  import opened Bytes
  import opened Catalogs
  import MoWriter
  import MoReader

  /** The pieces `WriteMo` assembles. */
  datatype Layout = Layout(es: seq<Entry>, a: MoWriter.Accum, keyStart: nat, valueStart: nat, ws: seq<nat>)

  /** The pieces for entries already in msgid order. */
  function LayoutFor(es: seq<Entry>): Layout {
    var a := MoWriter.Collect(MoWriter.Keys(es), MoWriter.Values(es));
    var keyStart := MoWriter.HeaderSize + 16 * |es|;
    var valueStart := keyStart + |a.ids|;
    Layout(es, a, keyStart, valueStart,
           MoWriter.HeaderWords(|es|, keyStart) + MoWriter.TableWords(a.offsets, keyStart, valueStart))
  }

  function LayoutOf(c: seq<Entry>): Layout {
    LayoutFor(MoWriter.SortByMsgid(c))
  }

  /** What the reader relies on in a layout. */
  predicate WellLaid(l: Layout) {
    && |l.a.offsets| == |l.es|
    && l.keyStart == MoWriter.HeaderSize + 16 * |l.es|
    && l.valueStart == l.keyStart + |l.a.ids|
    && l.ws == MoWriter.HeaderWords(|l.es|, l.keyStart) + MoWriter.TableWords(l.a.offsets, l.keyStart, l.valueStart)
    && forall i :: 0 <= i < |l.es| ==> MoWriter.Indexed(l.a, MoWriter.Keys(l.es), MoWriter.Values(l.es), i)
  }

  function FileOf(l: Layout, order: Endian): Bytes {
    Words(l.ws, order) + (l.a.ids + l.a.strs)
  }

  /** Every offset of the file fits in a word. */
  predicate Fits(l: Layout, order: Endian) {
    |FileOf(l, order)| < WordRange
  }

  lemma {:induction false} LaidOut(c: seq<Entry>, order: Endian)
    ensures WellLaid(LayoutOf(c))
    ensures LayoutOf(c).es == MoWriter.SortByMsgid(c) && |LayoutOf(c).es| == |c|
    ensures MoWriter.WriteMo(c, order) == FileOf(LayoutOf(c), order)
  {
    SortedLaidOut(MoWriter.SortByMsgid(c), order);
  }

  lemma {:induction false} SortedLaidOut(es: seq<Entry>, order: Endian)
    ensures WellLaid(LayoutFor(es)) && LayoutFor(es).es == es
    ensures MoWriter.WriteSorted(es, order) == FileOf(LayoutFor(es), order)
    ensures |LayoutFor(es).a.ids| == MoWriter.PackedSize(MoWriter.Keys(es))
  {
    SortedWellLaid(es);
    SortedFile(es, order);
  }

  /** The layout of the file for sorted entries, as far as the tables go. */
  lemma {:induction false} LayoutOfSorted(es: seq<Entry>, order: Endian) returns (l: Layout)
    ensures WellLaid(l) && l.es == es
    ensures FileOf(l, order) == MoWriter.WriteSorted(es, order)
    ensures |l.a.ids| == MoWriter.PackedSize(MoWriter.Keys(es))
    ensures l.valueStart == MoWriter.HeaderSize + 16 * |es| + MoWriter.PackedSize(MoWriter.Keys(es))
  {
    l := LayoutFor(es);
    SortedLaidOut(es, order);
  }

  lemma {:induction false} SortedWellLaid(es: seq<Entry>)
    ensures WellLaid(LayoutFor(es))
    ensures |LayoutFor(es).a.ids| == MoWriter.PackedSize(MoWriter.Keys(es))
  {
    var l := LayoutFor(es);
    assert l.a == MoWriter.Collect(MoWriter.Keys(es), MoWriter.Values(es));
  }

  lemma {:induction false} SortedFile(es: seq<Entry>, order: Endian)
    ensures MoWriter.WriteSorted(es, order) == FileOf(LayoutFor(es), order)
  {
    var l := LayoutFor(es);
    var w := Words(l.ws, order);
    assert MoWriter.WriteSorted(es, order) == w + l.a.ids + l.a.strs;
    Associate(w, l.a.ids, l.a.strs);
  }

  lemma {:induction false} Associate(x: Bytes, y: Bytes, z: Bytes)
    ensures x + y + z == x + (y + z)
  {
  }

  lemma {:induction false} FileSize(l: Layout, order: Endian)
    requires WellLaid(l)
    ensures |FileOf(l, order)| == l.valueStart + |l.a.strs|
  {
  }

  /** Writer layout, the header: magic, revision 0, the count, where the key
      and value tables start, hash size 0 and the hash position (just past
      the tables). */
  lemma {:induction false} WrittenHeader(c: seq<Entry>, order: Endian)
    ensures MoWriter.WriteMo(c, order)[..MoWriter.HeaderSize]
              == Words(MoWriter.HeaderWords(|c|, MoWriter.HeaderSize + 16 * |c|), order)
  {
    LaidOut(c, order);
    var l := LayoutOf(c);
    MoWriter.RunPieces(MoWriter.HeaderWords(|l.es|, l.keyStart),
                       MoWriter.TableWords(l.a.offsets, l.keyStart, l.valueStart), l.a.ids, l.a.strs, order);
  }

  /** Writer layout, the strings: past the two tables of 8n bytes each come
      every key NUL-terminated in msgid order, then every value likewise. */
  lemma {:induction false} WrittenStrings(c: seq<Entry>, order: Endian)
    ensures var es := MoWriter.SortByMsgid(c);
            MoWriter.WriteMo(c, order)[MoWriter.HeaderSize + 16 * |c|..]
              == MoWriter.Packed(MoWriter.Keys(es)) + MoWriter.Packed(MoWriter.Values(es))
  {
    LaidOut(c, order);
    var l := LayoutOf(c);
    MoWriter.RunPieces(MoWriter.HeaderWords(|l.es|, l.keyStart),
                       MoWriter.TableWords(l.a.offsets, l.keyStart, l.valueStart), l.a.ids, l.a.strs, order);
    MoWriter.CollectPacks(MoWriter.Keys(l.es), MoWriter.Values(l.es));
  }

  // ---------------------------------------------------------------------------
  // The header

  /** The magic number as a little-endian read sees a big-endian file. */
  lemma {:induction false} SwappedMagicSeen()
    ensures DecodeWord(EncodeWord(Magic, Big), Little) == MoReader.SwappedMagic
  {
  }

  /** A run starting with the magic number announces its own byte order. */
  lemma {:induction false} MagicOfRun(ws: seq<nat>, tail: Bytes, order: Endian)
    requires |ws| >= 1 && ws[0] == Magic
    ensures |Words(ws, order) + tail| >= 4
    ensures MoReader.DetectOrder(Words(ws, order) + tail) == Some(order)
  {
    var mo := Words(ws, order) + tail;
    WordsAt(ws, order, 0);
    assert mo[..4] == Words(ws, order)[0..4];
    DecodeEncode(Magic, Little);
    SwappedMagicSeen();
  }

  /** The header of a written file reads back: the magic selects the order it
      was written in, then come the count and both table positions. */
  lemma {:induction false} HeaderRead(l: Layout, order: Endian)
    requires WellLaid(l) && Fits(l, order)
    ensures var mo := FileOf(l, order);
            && |mo| >= MoReader.MinSize
            && MoReader.DetectOrder(mo) == Some(order)
            && WordAt(mo, 8, order) == Some(|l.es|)
            && WordAt(mo, 12, order) == Some(MoWriter.HeaderSize)
            && WordAt(mo, 16, order) == Some(MoWriter.HeaderSize + 8 * |l.es|)
  {
    var tail := l.a.ids + l.a.strs;
    assert l.ws[0] == Magic && l.ws[2] == |l.es|;
    assert l.ws[3] == MoWriter.HeaderSize && l.ws[4] == MoWriter.HeaderSize + 8 * |l.es|;
    MagicOfRun(l.ws, tail, order);
    ReadPackedWord(l.ws, order, tail, 2);
    ReadPackedWord(l.ws, order, tail, 3);
    ReadPackedWord(l.ws, order, tail, 4);
  }

  // ---------------------------------------------------------------------------
  // The index tables

  /** Pairs packed word by word from word `w` on read back as those pairs. */
  lemma {:induction false} PairsOfRun(ws: seq<nat>, tail: Bytes, order: Endian, w: nat, ps: seq<MoReader.Pair>)
    requires w + 2 * |ps| <= |ws|
    requires forall i :: 0 <= i < |ps| ==>
               ws[w + 2 * i] == ps[i].len < WordRange && ws[w + 2 * i + 1] == ps[i].off < WordRange
    ensures MoReader.ReadPairs(Words(ws, order) + tail, 4 * w, |ps|, order) == Some(ps)
  {
    var mo := Words(ws, order) + tail;
    var r := MoReader.ReadPairs(mo, 4 * w, |ps|, order);
    assert r.Some?;
    forall i | 0 <= i < |ps| ensures r.value[i] == ps[i] {
      PairOfRun(ws, tail, order, w + 2 * i, ps[i]);
      assert 4 * (w + 2 * i) == 4 * w + 8 * i;
    }
    assert r.value == ps;
  }

  /** One pair packed as words `j`, `j + 1` reads back at byte `4 * j`. */
  lemma {:induction false} PairOfRun(ws: seq<nat>, tail: Bytes, order: Endian, j: nat, p: MoReader.Pair)
    requires j + 1 < |ws| && ws[j] == p.len < WordRange && ws[j + 1] == p.off < WordRange
    ensures WordAt(Words(ws, order) + tail, 4 * j, order) == Some(p.len)
    ensures WordAt(Words(ws, order) + tail, 4 * j + 4, order) == Some(p.off)
  {
    ReadPackedWord(ws, order, tail, j);
    ReadPackedWord(ws, order, tail, j + 1);
  }

  /** Where the key table says key `i` is: its length, and its offset in the file. */
  function KeyPairs(l: Layout): (ps: seq<MoReader.Pair>)
    requires |l.a.offsets| == |l.es|
    ensures |ps| == |l.es|
  {
    seq(|l.es|, i requires 0 <= i < |l.es| => MoReader.Pair(l.a.offsets[i].idLen, l.keyStart + l.a.offsets[i].idOff))
  }

  function ValuePairs(l: Layout): (ps: seq<MoReader.Pair>)
    requires |l.a.offsets| == |l.es|
    ensures |ps| == |l.es|
  {
    seq(|l.es|, i requires 0 <= i < |l.es| => MoReader.Pair(l.a.offsets[i].strLen, l.valueStart + l.a.offsets[i].strOff))
  }

  /** Words 2i, 2i + 1 of the tables hold key pair `i`; words 2n + 2i,
      2n + 2i + 1 hold value pair `i`. */
  lemma {:induction false} TableWordsAt(offs: seq<MoWriter.Offsets>, keyStart: nat, valueStart: nat, i: nat)
    requires i < |offs|
    ensures var t := MoWriter.TableWords(offs, keyStart, valueStart);
            var n := |offs|;
            && t[2 * i] == offs[i].idLen
            && t[2 * i + 1] == keyStart + offs[i].idOff
            && t[2 * n + 2 * i] == offs[i].strLen
            && t[2 * n + 2 * i + 1] == valueStart + offs[i].strOff
  {
  }

  /** Key pair `i` sits at word 7 + 2i, value pair `i` at word 7 + 2n + 2i,
      and every word of them is below 2^32. */
  lemma {:induction false} PairWords(l: Layout, i: nat)
    requires WellLaid(l) && l.valueStart + |l.a.strs| < WordRange && i < |l.es|
    ensures var n := |l.es|;
            && l.ws[7 + 2 * i] == KeyPairs(l)[i].len < WordRange
            && l.ws[7 + 2 * i + 1] == KeyPairs(l)[i].off < WordRange
            && l.ws[(7 + 2 * n) + 2 * i] == ValuePairs(l)[i].len < WordRange
            && l.ws[(7 + 2 * n) + 2 * i + 1] == ValuePairs(l)[i].off < WordRange
  {
    KeyPairWords(l, i);
    ValuePairWords(l, i);
  }

  lemma {:induction false} KeyPairWords(l: Layout, i: nat)
    requires WellLaid(l) && l.valueStart + |l.a.strs| < WordRange && i < |l.es|
    ensures l.ws[7 + 2 * i] == KeyPairs(l)[i].len < WordRange
    ensures l.ws[7 + 2 * i + 1] == KeyPairs(l)[i].off < WordRange
  {
    var t := MoWriter.TableWords(l.a.offsets, l.keyStart, l.valueStart);
    TableWordsAt(l.a.offsets, l.keyStart, l.valueStart, i);
    assert l.ws[7 + 2 * i] == t[2 * i] && l.ws[7 + 2 * i + 1] == t[2 * i + 1];
    assert MoWriter.Indexed(l.a, MoWriter.Keys(l.es), MoWriter.Values(l.es), i);
  }

  lemma {:induction false} ValuePairWords(l: Layout, i: nat)
    requires WellLaid(l) && l.valueStart + |l.a.strs| < WordRange && i < |l.es|
    ensures l.ws[(7 + 2 * |l.es|) + 2 * i] == ValuePairs(l)[i].len < WordRange
    ensures l.ws[(7 + 2 * |l.es|) + 2 * i + 1] == ValuePairs(l)[i].off < WordRange
  {
    var n := |l.es|;
    var t := MoWriter.TableWords(l.a.offsets, l.keyStart, l.valueStart);
    TableWordsAt(l.a.offsets, l.keyStart, l.valueStart, i);
    AfterHeader(l.ws, MoWriter.HeaderWords(n, l.keyStart), t, 2 * n + 2 * i);
    ValueRowInside(l, i);
    var o := l.a.offsets[i];
    assert ValuePairs(l)[i] == MoReader.Pair(o.strLen, l.valueStart + o.strOff);
  }

  /** Word `j` of the tables is word 7 + j of the file's word run. */
  lemma {:induction false} AfterHeader(ws: seq<nat>, h: seq<nat>, t: seq<nat>, j: nat)
    requires ws == h + t && |h| == 7 && j + 1 < |t|
    ensures ws[7 + j] == t[j] && ws[7 + j + 1] == t[j + 1]
  {
  }

  /** Value `i` and its NUL lie inside the value blob. */
  lemma {:induction false} ValueRowInside(l: Layout, i: nat)
    requires WellLaid(l) && i < |l.es|
    ensures l.a.offsets[i].strOff + l.a.offsets[i].strLen < |l.a.strs|
  {
    assert MoWriter.Indexed(l.a, MoWriter.Keys(l.es), MoWriter.Values(l.es), i);
  }

  /** The key table of a written file reads back as the layout says. */
  lemma {:induction false} KeyTableRead(l: Layout, order: Endian)
    requires WellLaid(l) && Fits(l, order)
    ensures MoReader.ReadPairs(FileOf(l, order), MoWriter.HeaderSize, |l.es|, order) == Some(KeyPairs(l))
  {
    FileSize(l, order);
    forall i | 0 <= i < |l.es|
      ensures l.ws[7 + 2 * i] == KeyPairs(l)[i].len < WordRange
      ensures l.ws[7 + 2 * i + 1] == KeyPairs(l)[i].off < WordRange
    {
      PairWords(l, i);
    }
    PairsOfRun(l.ws, l.a.ids + l.a.strs, order, 7, KeyPairs(l));
  }

  /** The value table of a written file reads back as the layout says. */
  lemma {:induction false} ValueTableRead(l: Layout, order: Endian)
    requires WellLaid(l) && Fits(l, order)
    ensures MoReader.ReadPairs(FileOf(l, order), MoWriter.HeaderSize + 8 * |l.es|, |l.es|, order) == Some(ValuePairs(l))
  {
    var n := |l.es|;
    FileSize(l, order);
    forall i | 0 <= i < n
      ensures l.ws[(7 + 2 * n) + 2 * i] == ValuePairs(l)[i].len < WordRange
      ensures l.ws[(7 + 2 * n) + 2 * i + 1] == ValuePairs(l)[i].off < WordRange
    {
      PairWords(l, i);
    }
    PairsOfRun(l.ws, l.a.ids + l.a.strs, order, 7 + 2 * n, ValuePairs(l));
  }

  /** Writer layout, the key table: pair `i` holds the length of key `i`
      (without its NUL) and its position, the start of the keys right after
      the two tables plus the room the keys before it take. */
  lemma {:induction false} WrittenKeyPair(es: seq<Entry>, order: Endian, i: nat)
    requires |MoWriter.WriteSorted(es, order)| < WordRange && i < |es|
    ensures var mo, keys := MoWriter.WriteSorted(es, order), MoWriter.Keys(es);
            && WordAt(mo, MoWriter.HeaderSize + 8 * i, order) == Some(|keys[i]|)
            && WordAt(mo, MoWriter.HeaderSize + 8 * i + 4, order)
               == Some(MoWriter.HeaderSize + 16 * |es| + MoWriter.PackedSize(keys[..i]))
  {
    KeyPairAt(es, order, i, MoWriter.WriteSorted(es, order), MoWriter.Keys(es));
  }

  lemma {:induction false} KeyPairAt(es: seq<Entry>, order: Endian, i: nat, mo: Bytes, keys: seq<Bytes>)
    requires mo == MoWriter.WriteSorted(es, order) && keys == MoWriter.Keys(es)
    requires |mo| < WordRange && i < |es|
    ensures WordAt(mo, MoWriter.HeaderSize + 8 * i, order) == Some(|keys[i]|)
    ensures WordAt(mo, MoWriter.HeaderSize + 8 * i + 4, order)
            == Some(MoWriter.HeaderSize + 16 * |es| + MoWriter.PackedSize(keys[..i]))
  {
    var l := LayoutOfSorted(es, order);
    KeyPairContents(l, order, i, keys, mo, |es|);
  }

  /** Writer layout, the value table: pair `i` holds the length of value `i`
      and its position, the start of the values right after the last key plus
      the room the values before it take. */
  lemma {:induction false} WrittenValuePair(es: seq<Entry>, order: Endian, i: nat)
    requires |MoWriter.WriteSorted(es, order)| < WordRange && i < |es|
    ensures var mo := MoWriter.WriteSorted(es, order);
            var keys, vals := MoWriter.Keys(es), MoWriter.Values(es);
            var valueStart := MoWriter.HeaderSize + 16 * |es| + MoWriter.PackedSize(keys);
            && WordAt(mo, MoWriter.HeaderSize + 8 * |es| + 8 * i, order) == Some(|vals[i]|)
            && WordAt(mo, MoWriter.HeaderSize + 8 * |es| + 8 * i + 4, order)
               == Some(valueStart + MoWriter.PackedSize(vals[..i]))
  {
    WrittenValueLength(es, order, i);
    WrittenValueOffset(es, order, i);
  }

  lemma {:induction false} WrittenValueLength(es: seq<Entry>, order: Endian, i: nat)
    requires |MoWriter.WriteSorted(es, order)| < WordRange && i < |es|
    ensures WordAt(MoWriter.WriteSorted(es, order), MoWriter.HeaderSize + 8 * |es| + 8 * i, order) == Some(|MoWriter.Values(es)[i]|)
  {
    var l := LayoutOfSorted(es, order);
    var vs := MoWriter.HeaderSize + 16 * |es| + MoWriter.PackedSize(MoWriter.Keys(es));
    ValuePairRead(l, order, i, es, MoWriter.WriteSorted(es, order), vs);
  }

  lemma {:induction false} WrittenValueOffset(es: seq<Entry>, order: Endian, i: nat)
    requires |MoWriter.WriteSorted(es, order)| < WordRange && i < |es|
    ensures WordAt(MoWriter.WriteSorted(es, order), MoWriter.HeaderSize + 8 * |es| + 8 * i + 4, order)
            == Some(MoWriter.HeaderSize + 16 * |es| + MoWriter.PackedSize(MoWriter.Keys(es)) + MoWriter.PackedSize(MoWriter.Values(es)[..i]))
  {
    var l := LayoutOfSorted(es, order);
    var vs := MoWriter.HeaderSize + 16 * |es| + MoWriter.PackedSize(MoWriter.Keys(es));
    ValuePairRead(l, order, i, es, MoWriter.WriteSorted(es, order), vs);
  }

  lemma {:induction false} KeyPairContents(l: Layout, order: Endian, i: nat, keys: seq<Bytes>, mo: Bytes, n: nat)
    requires WellLaid(l) && Fits(l, order) && i < |l.es|
    requires keys == MoWriter.Keys(l.es)
    requires mo == FileOf(l, order) && n == |l.es|
    ensures WordAt(mo, MoWriter.HeaderSize + 8 * i, order) == Some(|keys[i]|)
    ensures WordAt(mo, MoWriter.HeaderSize + 8 * i + 4, order)
            == Some(MoWriter.HeaderSize + 16 * n + MoWriter.PackedSize(keys[..i]))
  {
    KeyPairIs(l, i, keys);
    KeyPairRead(l, order, i);
  }

  /** Key pair `i` of a layout: the key's length and where it starts. */
  lemma {:induction false} KeyPairIs(l: Layout, i: nat, keys: seq<Bytes>)
    requires WellLaid(l) && i < |l.es| && keys == MoWriter.Keys(l.es)
    ensures KeyPairs(l)[i] == MoReader.Pair(|keys[i]|, MoWriter.HeaderSize + 16 * |l.es| + MoWriter.PackedSize(keys[..i]))
  {
    assert MoWriter.Indexed(l.a, keys, MoWriter.Values(l.es), i);
  }

  /** Value pair `i` of a layout: the value's length and where it starts. */
  lemma {:induction false} ValuePairIs(l: Layout, i: nat)
    requires WellLaid(l) && i < |l.es|
    ensures ValuePairs(l)[i]
            == MoReader.Pair(|MoWriter.Values(l.es)[i]|, l.valueStart + MoWriter.PackedSize(MoWriter.Values(l.es)[..i]))
  {
    assert MoWriter.Indexed(l.a, MoWriter.Keys(l.es), MoWriter.Values(l.es), i);
  }

  /** Key pair `i`, read straight from a laid-out file. */
  lemma {:induction false} KeyPairRead(l: Layout, order: Endian, i: nat)
    requires WellLaid(l) && Fits(l, order) && i < |l.es|
    ensures WordAt(FileOf(l, order), MoWriter.HeaderSize + 8 * i, order) == Some(KeyPairs(l)[i].len)
    ensures WordAt(FileOf(l, order), MoWriter.HeaderSize + 8 * i + 4, order) == Some(KeyPairs(l)[i].off)
  {
    KeyTableRead(l, order);
  }

  /** Value pair `i`, read straight from a laid-out file `mo` whose values
      start at `vs`. */
  lemma {:induction false} ValuePairRead(l: Layout, order: Endian, i: nat, es: seq<Entry>, mo: Bytes, vs: nat)
    requires WellLaid(l) && Fits(l, order) && i < |l.es|
    requires es == l.es && mo == FileOf(l, order) && vs == l.valueStart
    ensures WordAt(mo, MoWriter.HeaderSize + 8 * |es| + 8 * i, order) == Some(|MoWriter.Values(es)[i]|)
    ensures WordAt(mo, MoWriter.HeaderSize + 8 * |es| + 8 * i + 4, order)
            == Some(vs + MoWriter.PackedSize(MoWriter.Values(es)[..i]))
  {
    ValueTableRead(l, order);
    ValuePairIs(l, i);
  }

  // ---------------------------------------------------------------------------
  // The strings

  /** What the reader gets for an entry's key: nothing for an empty key,
      otherwise the key's bytes as text. */
  function KeySlot(e: Entry): MoReader.Slot {
    var k := ToText(ToBytes(MoWriter.KeyOf(e)));
    if |k| == 0 then MoReader.Skipped else MoReader.Loaded(k)
  }

  function ValueSlot(e: Entry): MoReader.Slot {
    var v := ToText(ToBytes(MoWriter.ValueOf(e)));
    if |v| == 0 then MoReader.Skipped else MoReader.Loaded(v)
  }

  function KeySlots(es: seq<Entry>): (ss: seq<MoReader.Slot>)
    ensures |ss| == |es|
  {
    seq(|es|, i requires 0 <= i < |es| => KeySlot(es[i]))
  }

  function ValueSlots(es: seq<Entry>): (ss: seq<MoReader.Slot>)
    ensures |ss| == |es|
  {
    seq(|es|, i requires 0 <= i < |es| => ValueSlot(es[i]))
  }

  lemma {:induction false} SliceOfMiddle(w: Bytes, x: Bytes, y: Bytes, off: nat, len: nat)
    requires off + len <= |x|
    ensures (w + (x + y))[|w| + off..|w| + off + len] == x[off..off + len]
  {
  }

  lemma {:induction false} SliceOfLast(w: Bytes, x: Bytes, y: Bytes, off: nat, len: nat)
    requires off + len <= |y|
    ensures (w + (x + y))[|w| + |x| + off..|w| + |x| + off + len] == y[off..off + len]
  {
  }

  /** Key `i` is read from where the writer put it. */
  lemma {:induction false} KeyFetched(l: Layout, order: Endian, i: nat)
    requires WellLaid(l) && i < |l.es|
    ensures MoReader.InBounds(FileOf(l, order), KeyPairs(l)[i])
    ensures MoReader.Fetch(FileOf(l, order), KeyPairs(l)[i]) == KeySlot(l.es[i])
  {
    var keys := MoWriter.Keys(l.es);
    assert MoWriter.Indexed(l.a, keys, MoWriter.Values(l.es), i);
    var o := l.a.offsets[i];
    SliceOfMiddle(Words(l.ws, order), l.a.ids, l.a.strs, o.idOff, o.idLen);
  }

  /** Value `i` is read from where the writer put it. */
  lemma {:induction false} ValueFetched(l: Layout, order: Endian, i: nat)
    requires WellLaid(l) && i < |l.es|
    ensures MoReader.InBounds(FileOf(l, order), ValuePairs(l)[i])
    ensures MoReader.Fetch(FileOf(l, order), ValuePairs(l)[i]) == ValueSlot(l.es[i])
  {
    var vals := MoWriter.Values(l.es);
    assert MoWriter.Indexed(l.a, MoWriter.Keys(l.es), vals, i);
    var o := l.a.offsets[i];
    SliceOfLast(Words(l.ws, order), l.a.ids, l.a.strs, o.strOff, o.strLen);
  }

  lemma {:induction false} StringsRead(l: Layout, order: Endian)
    requires WellLaid(l)
    ensures MoReader.FetchAll(FileOf(l, order), KeyPairs(l)) == Some(KeySlots(l.es))
    ensures MoReader.FetchAll(FileOf(l, order), ValuePairs(l)) == Some(ValueSlots(l.es))
  {
    var mo := FileOf(l, order);
    forall i | 0 <= i < |l.es|
      ensures MoReader.InBounds(mo, KeyPairs(l)[i]) && MoReader.Fetch(mo, KeyPairs(l)[i]) == KeySlots(l.es)[i]
      ensures MoReader.InBounds(mo, ValuePairs(l)[i]) && MoReader.Fetch(mo, ValuePairs(l)[i]) == ValueSlots(l.es)[i]
    {
      KeyFetched(l, order, i);
      ValueFetched(l, order, i);
    }
    assert MoReader.FetchAll(mo, KeyPairs(l)).value == KeySlots(l.es);
    assert MoReader.FetchAll(mo, ValuePairs(l)).value == ValueSlots(l.es);
  }

  // ---------------------------------------------------------------------------
  // Reading a written file

  /** The reader replays the writer's entries in sorted order, whatever byte
      order the file was written in. */
  lemma {:induction false} ReadWritten(c: seq<Entry>, order: Endian)
    requires |MoWriter.WriteMo(c, order)| < WordRange
    ensures var es := MoWriter.SortByMsgid(c);
            MoReader.Read(MoWriter.WriteMo(c, order))
              == Some(MoReader.Run(MoReader.Initial, KeySlots(es), ValueSlots(es)).result - {""})
  {
    LaidOut(c, order);
    var l := LayoutOf(c);
    HeaderRead(l, order);
    KeyTableRead(l, order);
    ValueTableRead(l, order);
    StringsRead(l, order);
  }

  /** The file's byte order does not change what is read. */
  lemma {:induction false} ByteOrderIrrelevant(c: seq<Entry>)
    requires |MoWriter.Write(c)| < WordRange
    ensures MoReader.Read(MoWriter.WriteMo(c, Big)) == MoReader.Read(MoWriter.WriteMo(c, Little))
  {
    ReadWritten(c, Little);
    ReadWritten(c, Big);
  }

  // ---------------------------------------------------------------------------
  // Simple entries

  /** No context, no plural, one translation; msgid and translation are byte
      strings without NUL, and the msgid is not the header's empty one. */
  predicate SimpleEntry(e: Entry) {
    && e.msgctxt.None? && e.msgidPlural.None? && |e.msgstr| == 1
    && e.msgid != ""
    && Nul !in e.msgid && Nul !in OnlyForm(e)
    && IsByteString(e.msgid) && IsByteString(OnlyForm(e))
  }

  /** The translation a simple entry carries. */
  function OnlyForm(e: Entry): string {
    if |e.msgstr| == 0 then "" else e.msgstr[0]
  }

  /** A simple entry stores its translation under its msgid, unless the
      translation is empty and the reader skips it. */
  lemma {:induction false} AbsorbSimple(st: MoReader.Carry, e: Entry)
    requires SimpleEntry(e)
    ensures MoReader.Absorb(st, KeySlot(e), ValueSlot(e)).result
              == if OnlyForm(e) == "" then st.result else st.result[e.msgid := MoReader.Single(OnlyForm(e))]
  {
    assert MoWriter.KeyOf(e) == e.msgid;
    TextOfBytes(e.msgid);
    assert KeySlot(e) == MoReader.Loaded(e.msgid);
    SplitAfterPiece(e.msgid, Nul, []);
    if OnlyForm(e) != "" {
      TextOfBytes(OnlyForm(e));
      assert ValueSlot(e) == MoReader.Loaded(OnlyForm(e));
      SplitAfterPiece(OnlyForm(e), Nul, []);
    }
  }

  lemma {:induction false} DistinctTail(es: seq<Entry>)
    requires |es| > 0 && DistinctMsgids(es)
    ensures DistinctMsgids(es[1..])
    ensures forall j :: 0 <= j < |es[1..]| ==> es[1..][j].msgid != es[0].msgid
  {
    forall j | 0 <= j < |es[1..]| ensures es[1..][j].msgid != es[0].msgid {
      assert es[1..][j] == es[j + 1];
    }
  }

  /** One simple entry replayed, then the rest. */
  lemma {:induction false} RunCons(st: MoReader.Carry, es: seq<Entry>)
    requires |es| > 0 && SimpleEntry(es[0])
    ensures MoReader.Run(st, KeySlots(es), ValueSlots(es)).result
              == MoReader.Run(MoReader.Absorb(st, KeySlot(es[0]), ValueSlot(es[0])), KeySlots(es[1..]), ValueSlots(es[1..])).result
    ensures MoReader.Absorb(st, KeySlot(es[0]), ValueSlot(es[0])).result
              == if OnlyForm(es[0]) == "" then st.result else st.result[es[0].msgid := MoReader.Single(OnlyForm(es[0]))]
  {
    AbsorbSimple(st, es[0]);
    assert KeySlots(es)[1..] == KeySlots(es[1..]) && ValueSlots(es)[1..] == ValueSlots(es[1..]);
  }

  /** Replaying simple entries leaves keys that no entry mentions alone. */
  lemma {:induction false} RunKeeps(st: MoReader.Carry, es: seq<Entry>)
    requires forall i :: 0 <= i < |es| ==> SimpleEntry(es[i])
    ensures var r := MoReader.Run(st, KeySlots(es), ValueSlots(es)).result;
            forall k :: k in st.result && (forall i :: 0 <= i < |es| ==> es[i].msgid != k) ==>
              k in r && r[k] == st.result[k]
    decreases |es|
  {
    if |es| > 0 {
      var next := MoReader.Absorb(st, KeySlot(es[0]), ValueSlot(es[0]));
      RunCons(st, es);
      RunKeeps(next, es[1..]);
      forall k | k in st.result && (forall i :: 0 <= i < |es| ==> es[i].msgid != k)
        ensures k in next.result && next.result[k] == st.result[k]
        ensures forall j :: 0 <= j < |es[1..]| ==> es[1..][j].msgid != k
      {
        assert es[0].msgid != k;
        forall j | 0 <= j < |es[1..]| ensures es[1..][j].msgid != k {
          assert es[1..][j] == es[j + 1];
        }
      }
    }
  }

  /** Replaying simple entries adds only the msgids of entries with a
      non-empty translation. */
  lemma {:induction false} RunAddsOnly(st: MoReader.Carry, es: seq<Entry>)
    requires forall i :: 0 <= i < |es| ==> SimpleEntry(es[i])
    ensures var r := MoReader.Run(st, KeySlots(es), ValueSlots(es)).result;
            forall k :: k in r ==>
              k in st.result || exists i :: 0 <= i < |es| && es[i].msgid == k && OnlyForm(es[i]) != ""
    decreases |es|
  {
    if |es| > 0 {
      var next := MoReader.Absorb(st, KeySlot(es[0]), ValueSlot(es[0]));
      var rest := es[1..];
      RunCons(st, es);
      RunAddsOnly(next, rest);
      var r := MoReader.Run(st, KeySlots(es), ValueSlots(es)).result;
      forall k | k in r
        ensures k in st.result || exists i :: 0 <= i < |es| && es[i].msgid == k && OnlyForm(es[i]) != ""
      {
        if k !in next.result {
          var j :| 0 <= j < |rest| && rest[j].msgid == k && OnlyForm(rest[j]) != "";
          assert es[j + 1] == rest[j];
        } else if k !in st.result {
          assert es[0].msgid == k;
        }
      }
    }
  }

  /** Replaying simple entries with distinct msgids: each non-empty
      translation lands under its msgid. */
  lemma {:induction false} RunStores(st: MoReader.Carry, es: seq<Entry>)
    requires forall i :: 0 <= i < |es| ==> SimpleEntry(es[i])
    requires DistinctMsgids(es)
    ensures var r := MoReader.Run(st, KeySlots(es), ValueSlots(es)).result;
            forall i :: 0 <= i < |es| && OnlyForm(es[i]) != "" ==>
              es[i].msgid in r && r[es[i].msgid] == MoReader.Single(OnlyForm(es[i]))
    decreases |es|
  {
    if |es| > 0 {
      var next := MoReader.Absorb(st, KeySlot(es[0]), ValueSlot(es[0]));
      var rest := es[1..];
      RunCons(st, es);
      DistinctTail(es);
      RunStores(next, rest);
      RunKeeps(next, rest);
      var r := MoReader.Run(st, KeySlots(es), ValueSlots(es)).result;
      forall i | 0 <= i < |es| && OnlyForm(es[i]) != ""
        ensures es[i].msgid in r && r[es[i].msgid] == MoReader.Single(OnlyForm(es[i]))
      {
        if i > 0 {
          assert rest[i - 1] == es[i];
        }
      }
    }
  }

  /** What the reader's replay of sorted simple entries leaves, once the
      header key is removed. */
  lemma {:induction false} SimpleReplay(es: seq<Entry>)
    requires forall i :: 0 <= i < |es| ==> SimpleEntry(es[i])
    requires DistinctMsgids(es)
    ensures var r := MoReader.Run(MoReader.Initial, KeySlots(es), ValueSlots(es)).result - {""};
            && (forall e :: e in es ==> (e.msgid in r <==> OnlyForm(e) != ""))
            && (forall e :: e in es && OnlyForm(e) != "" ==> r[e.msgid] == MoReader.Single(OnlyForm(e)))
            && (forall k :: k in r ==> exists e :: e in es && e.msgid == k)
  {
    var r := MoReader.Run(MoReader.Initial, KeySlots(es), ValueSlots(es)).result;
    ReplayKeys(es, r);
    ReplayValues(es, r);
    ReplayOnly(es, r);
  }

  /** A msgid survives the replay exactly when its translation is not empty. */
  lemma {:induction false} ReplayKeys(es: seq<Entry>, r: map<string, MoReader.Translation>)
    requires forall i :: 0 <= i < |es| ==> SimpleEntry(es[i])
    requires DistinctMsgids(es)
    requires r == MoReader.Run(MoReader.Initial, KeySlots(es), ValueSlots(es)).result
    ensures forall e :: e in es ==> (e.msgid in r - {""} <==> OnlyForm(e) != "")
  {
    RunStores(MoReader.Initial, es);
    RunAddsOnly(MoReader.Initial, es);
    forall e | e in es ensures (e.msgid in r - {""} <==> OnlyForm(e) != "") {
      var i :| 0 <= i < |es| && es[i] == e;
      if e.msgid in r {
        var j :| 0 <= j < |es| && es[j].msgid == e.msgid && OnlyForm(es[j]) != "";
        assert i == j;
      }
    }
  }

  lemma {:induction false} ReplayValues(es: seq<Entry>, r: map<string, MoReader.Translation>)
    requires forall i :: 0 <= i < |es| ==> SimpleEntry(es[i])
    requires DistinctMsgids(es)
    requires r == MoReader.Run(MoReader.Initial, KeySlots(es), ValueSlots(es)).result
    ensures forall e :: e in es && OnlyForm(e) != "" ==> e.msgid in r && r[e.msgid] == MoReader.Single(OnlyForm(e))
  {
    RunStores(MoReader.Initial, es);
    forall e | e in es && OnlyForm(e) != "" ensures e.msgid in r && r[e.msgid] == MoReader.Single(OnlyForm(e)) {
      var i :| 0 <= i < |es| && es[i] == e;
    }
  }

  lemma {:induction false} ReplayOnly(es: seq<Entry>, r: map<string, MoReader.Translation>)
    requires forall i :: 0 <= i < |es| ==> SimpleEntry(es[i])
    requires r == MoReader.Run(MoReader.Initial, KeySlots(es), ValueSlots(es)).result
    ensures forall k :: k in r - {""} ==> exists e :: e in es && e.msgid == k
  {
    RunAddsOnly(MoReader.Initial, es);
    forall k | k in r - {""} ensures exists e :: e in es && e.msgid == k {
      var j :| 0 <= j < |es| && es[j].msgid == k && OnlyForm(es[j]) != "";
      assert es[j] in es;
    }
  }

  /** The simple round trip: writing a catalog of simple entries and reading
      the file back maps every msgid to its translation. Entries with an
      empty translation are skipped by the reader, and no other key appears. */
  lemma {:induction false} SimpleRoundTrip(c: seq<Entry>)
    requires forall e :: e in c ==> SimpleEntry(e)
    requires DistinctMsgids(c)
    requires |MoWriter.Write(c)| < WordRange
    ensures MoReader.Read(MoWriter.Write(c)).Some?
    ensures var r := MoReader.Read(MoWriter.Write(c)).value;
            && (forall e :: e in c ==> (e.msgid in r <==> OnlyForm(e) != ""))
            && (forall e :: e in c && OnlyForm(e) != "" ==> r[e.msgid] == MoReader.Single(OnlyForm(e)))
            && (forall k :: k in r ==> exists e :: e in c && e.msgid == k)
  {
    var es := MoWriter.SortByMsgid(c);
    ReadWritten(c, Little);
    MoWriter.SortDistinct(c);
    SameMembers(es, c);
    SimpleReplay(es);
  }

  lemma {:induction false} SameMembers(a: seq<Entry>, b: seq<Entry>)
    requires multiset(a) == multiset(b)
    ensures forall x :: x in a <==> x in b
  {
    forall x ensures x in a <==> x in b {
      assert x in a <==> x in multiset(a);
      assert x in b <==> x in multiset(b);
    }
  }

  // ---------------------------------------------------------------------------
  // A plural entry

  lemma {:induction false} JoinedBytes(parts: seq<string>, sep: char)
    requires forall i :: 0 <= i < |parts| ==> IsByteString(parts[i])
    requires IsByteString([sep])
    ensures IsByteString(Join(parts, sep))
    ensures |parts| >= 2 ==> |Join(parts, sep)| >= 1
  {
    if |parts| > 1 {
      JoinedBytes(parts[1..], sep);
    }
  }

  /** The slots the reader gets for a plural entry. */
  lemma {:induction false} PluralSlots(e: Entry)
    requires e.msgctxt.None? && e.msgidPlural.Some? && |e.msgstr| >= 2
    requires IsByteString(e.msgid) && IsByteString(e.msgidPlural.value)
    requires forall i :: 0 <= i < |e.msgstr| ==> IsByteString(e.msgstr[i])
    ensures KeySlots([e]) == [MoReader.Loaded(e.msgid + [Nul] + e.msgidPlural.value)]
    ensures ValueSlots([e]) == [MoReader.Loaded(Join(e.msgstr, Nul))]
  {
    var key := e.msgid + [Nul] + e.msgidPlural.value;
    assert MoWriter.KeyOf(e) == key;
    TextOfBytes(key);
    JoinedBytes(e.msgstr, Nul);
    TextOfBytes(Join(e.msgstr, Nul));
  }

  lemma {:induction false} SplitPlural(id: string, plural: string)
    requires Nul !in id && Nul !in plural
    ensures Split(id + [Nul] + plural, Nul) == [id, plural]
  {
    SplitAfterPiece(id, Nul, plural);
    SplitAfterPiece(plural, Nul, []);
  }

  /** One loaded plural key with several forms, on an empty cache. */
  lemma {:induction false} PluralAbsorb(id: string, plural: string, forms: seq<string>)
    requires Nul !in id && Nul !in plural && |forms| >= 2
    requires forall i :: 0 <= i < |forms| ==> Nul !in forms[i]
    ensures MoReader.Absorb(MoReader.Initial, MoReader.Loaded(id + [Nul] + plural),
                            MoReader.Loaded(Join(forms, Nul))).result
              == map[id := MoReader.Forms(forms)][plural := MoReader.Single("")]
  {
    var key := id + [Nul] + plural;
    SplitPlural(id, plural);
    SplitJoin(forms, Nul);
    var original := MoReader.Originals(MoReader.Initial, MoReader.Loaded(key));
    assert original == [id, plural];
    assert original[1..] == [plural];
    var m := map[id := MoReader.Forms(forms)];
    assert MoReader.MarkPlurals(m, [plural]) == MoReader.MarkPlurals(m[plural := MoReader.Single("")], []);
  }

  /** A plural entry read back: the msgid maps to all its forms, and the
      plural msgid to the empty string (which wins should the two be equal). */
  lemma {:induction false} PluralRoundTrip(id: string, plural: string, forms: seq<string>)
    requires id != ""
    requires Nul !in id && Nul !in plural && IsByteString(id) && IsByteString(plural)
    requires |forms| >= 2
    requires forall i :: 0 <= i < |forms| ==> Nul !in forms[i] && IsByteString(forms[i])
    requires |MoWriter.Write([Entry(None, id, Some(plural), forms)])| < WordRange
    ensures MoReader.Read(MoWriter.Write([Entry(None, id, Some(plural), forms)]))
              == Some(map[id := MoReader.Forms(forms)][plural := MoReader.Single("")] - {""})
  {
    var e := Entry(None, id, Some(plural), forms);
    assert MoWriter.SortByMsgid([e]) == [e];
    ReadWritten([e], Little);
    PluralSlots(e);
    PluralAbsorb(id, plural, forms);
  }
}

=== FILE: text.dfy ===
/** The PHP string primitives the gettext engine is built from: `explode`,
    `implode`, `str_replace`, `strpos`, `trim` and the byte order `ksort`
    uses with SORT_STRING. */
module Text {

  /** The pieces of `s` between occurrences of `sep`, as PHP's `explode`.
      There is always at least one piece, no piece holds `sep`, and gluing the
      pieces back with `sep` gives `s` again. */
  function Split<T(==)>(s: seq<T>, sep: T): (parts: seq<seq<T>>)
    ensures |parts| >= 1
    ensures forall i :: 0 <= i < |parts| ==> sep !in parts[i]
    ensures Join(parts, sep) == s
    decreases |s|
  {
    if |s| == 0 then [[]]
    else
      var rest := Split(s[1..], sep);
      if s[0] == sep then [[]] + rest
      else [[s[0]] + rest[0]] + rest[1..]
  }

  /** PHP's `"\0"`: the separator of plural parts in an MO key or value. */
  const Nul: char := '\0'

  /** The pieces glued back together with `sep` between them. */
  function Join<T>(parts: seq<seq<T>>, sep: T): seq<T>
  {
    if |parts| == 0 then []
    else if |parts| == 1 then parts[0]
    else parts[0] + [sep] + Join(parts[1..], sep)
  }

  /** A piece free of the separator is cut off whole by `Split`. */
  lemma {:induction false} SplitAfterPiece<T>(x: seq<T>, sep: T, y: seq<T>)
    requires sep !in x
    ensures Split(x + [sep] + y, sep) == [x] + Split(y, sep)
    ensures Split(x, sep) == [x]
    decreases |x|
  {
    SplitWhole(x, sep);
    if |x| == 0 {
      var s := x + [sep] + y;
      assert s[0] == sep && s[1..] == y;
    } else {
      SplitAfterPiece(x[1..], sep, y);
      SplitAfterStep(x, sep, y);
    }
  }

  lemma {:induction false} SplitAfterStep<T>(x: seq<T>, sep: T, y: seq<T>)
    requires |x| > 0 && x[0] != sep
    requires Split(x[1..] + [sep] + y, sep) == [x[1..]] + Split(y, sep)
    ensures Split(x + [sep] + y, sep) == [x] + Split(y, sep)
  {
    var t := x[1..] + [sep] + y;
    assert x + [sep] + y == [x[0]] + t;
    SplitCons(x[0], t, sep, x[1..], Split(y, sep));
    assert [x[0]] + x[1..] == x;
  }

  /** A character other than the separator joins the first piece. */
  lemma {:induction false} SplitCons<T>(c: T, t: seq<T>, sep: T, p: seq<T>, rest: seq<seq<T>>)
    requires c != sep && Split(t, sep) == [p] + rest
    ensures Split([c] + t, sep) == [[c] + p] + rest
  {
    assert ([c] + t)[0] == c && ([c] + t)[1..] == t;
  }

  lemma {:induction false} SplitWhole<T>(x: seq<T>, sep: T)
    requires sep !in x
    ensures Split(x, sep) == [x]
    decreases |x|
  {
    if |x| > 0 {
      SplitWhole(x[1..], sep);
      assert [x[0]] + x[1..] == x;
    }
  }

  /** `Split` undoes `Join` when no piece contains the separator. */
  lemma {:induction false} SplitJoin<T>(parts: seq<seq<T>>, sep: T)
    requires |parts| >= 1
    requires forall i :: 0 <= i < |parts| ==> sep !in parts[i]
    ensures Split(Join(parts, sep), sep) == parts
    decreases |parts|
  {
    if |parts| == 1 {
      SplitAfterPiece(parts[0], sep, []);
    } else {
      SplitJoin(parts[1..], sep);
      SplitAfterPiece(parts[0], sep, Join(parts[1..], sep));
      assert [parts[0]] + parts[1..] == parts;
    }
  }

  /** Joining pieces adds only the separator: a value that is neither the
      separator nor in any piece is not in the joined sequence. */
  lemma {:induction false} JoinAvoids<T>(parts: seq<seq<T>>, sep: T, c: T)
    requires c != sep
    requires forall i :: 0 <= i < |parts| ==> c !in parts[i]
    ensures c !in Join(parts, sep)
    decreases |parts|
  {
    if |parts| > 1 {
      JoinAvoids(parts[1..], sep, c);
    }
  }

  /** Substitution as PHP's `str_replace`: scanning left to right, every
      occurrence of `pat` that does not overlap an earlier replaced one becomes
      `rep`. PHP leaves the subject alone when the search string is empty. */
  function ReplaceAll<T(==)>(s: seq<T>, pat: seq<T>, rep: seq<T>): seq<T>
    decreases |s|
  {
    if |pat| == 0 || |s| == 0 then s
    else if pat <= s then rep + ReplaceAll(s[|pat|..], pat, rep)
    else [s[0]] + ReplaceAll(s[1..], pat, rep)
  }

  /** A subject that lacks some element of the pattern is left unchanged. */
  lemma {:induction false} ReplaceAbsent<T>(s: seq<T>, pat: seq<T>, rep: seq<T>, k: nat)
    requires k < |pat| && pat[k] !in s
    ensures ReplaceAll(s, pat, rep) == s
    decreases |s|
  {
    if |s| > 0 {
      assert !(pat <= s);
      ReplaceAbsent(s[1..], pat, rep, k);
    }
  }

  /** With a one-element pattern, `str_replace` works element by element, so it
      distributes over concatenation. */
  lemma {:induction false} ReplaceOneAppend<T>(x: seq<T>, y: seq<T>, p: T, rep: seq<T>)
    ensures ReplaceAll(x + y, [p], rep) == ReplaceAll(x, [p], rep) + ReplaceAll(y, [p], rep)
    decreases |x|
  {
    if |x| > 0 {
      ReplaceOneAppend(x[1..], y, p, rep);
      assert (x + y)[1..] == x[1..] + y;
      assert [p] <= x + y <==> [p] <= x;
    } else {
      assert x + y == y;
    }
  }

  /** Replacing a single element by something that does not contain it removes
      it everywhere. */
  lemma {:induction false} ReplaceOneRemoves<T>(s: seq<T>, p: T, rep: seq<T>)
    requires p !in rep
    ensures p !in ReplaceAll(s, [p], rep)
    decreases |s|
  {
    if |s| > 0 {
      ReplaceOneRemoves(s[1..], p, rep);
    }
  }

  /** `pat` occurs somewhere in `s`. */
  predicate Contains<T(==)>(s: seq<T>, pat: seq<T>)
    decreases |s|
  {
    pat <= s || (|s| > 0 && Contains(s[1..], pat))
  }

  /** The characters PHP's `trim` removes by default: space, tab, LF, CR, NUL
      and vertical tab. */
  predicate IsBlank(c: char) {
    c == ' ' || c == '\t' || c == '\n' || c == '\r' || c == '\0' || c == '\U{B}'
  }

  predicate AllBlank(s: string) {
    forall i :: 0 <= i < |s| ==> IsBlank(s[i])
  }

  function TrimStart(s: string): (r: string)
    ensures |r| <= |s| && r == s[|s| - |r|..]
    ensures AllBlank(s[..|s| - |r|])
    ensures |r| > 0 ==> !IsBlank(r[0])
    decreases |s|
  {
    if |s| > 0 && IsBlank(s[0]) then TrimStart(s[1..]) else s
  }

  function TrimEnd(s: string): (r: string)
    ensures |r| <= |s| && r == s[..|r|]
    ensures AllBlank(s[|r|..])
    ensures |r| > 0 ==> !IsBlank(r[|r| - 1])
    decreases |s|
  {
    if |s| > 0 && IsBlank(s[|s| - 1]) then
      var r := TrimEnd(s[..|s| - 1]);
      assert s[|r|..] == s[..|s| - 1][|r|..] + [s[|s| - 1]];
      r
    else s
  }

  /** The number of blanks that open `s`. */
  function LeadingBlanks(s: string): (k: nat)
    ensures k <= |s| && AllBlank(s[..k])
    ensures k < |s| ==> !IsBlank(s[k])
    decreases |s|
  {
    if |s| > 0 && IsBlank(s[0]) then
      var k := 1 + LeadingBlanks(s[1..]);
      assert s[..k] == [s[0]] + s[1..][..k - 1];
      k
    else 0
  }

  /** White space stripped from both ends, as PHP's `trim`: the result is the
      part of `s` that starts after its leading blanks, only blanks follow it,
      and neither end of it is blank. */
  function Trim(s: string): (r: string)
    ensures |r| > 0 ==> !IsBlank(r[0]) && !IsBlank(r[|r| - 1])
    ensures LeadingBlanks(s) + |r| <= |s|
    ensures forall i :: 0 <= i < |r| ==> r[i] == s[LeadingBlanks(s) + i]
    ensures forall i :: LeadingBlanks(s) + |r| <= i < |s| ==> IsBlank(s[i])
  {
    var t := TrimStart(s);
    var r := TrimEnd(t);
    TrimSlice(s, t, r);
    r
  }

  /** What `TrimStart` cuts is exactly the leading blanks. */
  lemma {:induction false} TrimStartCuts(s: string)
    ensures |s| - |TrimStart(s)| == LeadingBlanks(s)
    decreases |s|
  {
    if |s| > 0 && IsBlank(s[0]) {
      TrimStartCuts(s[1..]);
    }
  }

  /** Cutting the leading blanks and then a blank suffix leaves the middle of
      the original. */
  lemma {:induction false} TrimSlice(s: string, t: string, r: string)
    requires t == TrimStart(s)
    requires |r| <= |t| && r == t[..|r|] && AllBlank(t[|r|..])
    requires |r| > 0 ==> !IsBlank(r[|r| - 1])
    ensures |r| > 0 ==> !IsBlank(r[0]) && !IsBlank(r[|r| - 1])
    ensures LeadingBlanks(s) + |r| <= |s|
    ensures forall i :: 0 <= i < |r| ==> r[i] == s[LeadingBlanks(s) + i]
    ensures forall i :: LeadingBlanks(s) + |r| <= i < |s| ==> IsBlank(s[i])
  {
    TrimStartCuts(s);
    var k := LeadingBlanks(s);
    assert t == s[k..];
    forall i | k + |r| <= i < |s|
      ensures IsBlank(s[i])
    {
      assert s[i] == t[|r|..][i - k - |r|];
    }
    if |r| > 0 {
      assert r[0] == t[0];
    }
  }

  /** A string whose ends are not blank is its own trim. */
  lemma {:induction false} TrimUntouched(s: string)
    requires |s| > 0 && !IsBlank(s[0]) && !IsBlank(s[|s| - 1])
    ensures Trim(s) == s
  {
    var r := Trim(s);
    assert LeadingBlanks(s) == 0;
    assert |r| == |s|;
    assert r == s;
  }

  /** Byte order of strings, as `strcmp` (and `ksort` with SORT_STRING) sees
      them: compare character codes, a proper prefix first. */
  predicate Below(a: string, b: string)
    decreases |a|
  {
    |a| == 0 || (|b| > 0 && (a[0] < b[0] || (a[0] == b[0] && Below(a[1..], b[1..]))))
  }

  lemma {:induction false} BelowTotal(a: string, b: string)
    ensures Below(a, b) || Below(b, a)
    decreases |a|
  {
    if |a| > 0 && |b| > 0 && a[0] == b[0] {
      BelowTotal(a[1..], b[1..]);
    }
  }

  lemma {:induction false} BelowAntisymmetric(a: string, b: string)
    requires Below(a, b) && Below(b, a)
    ensures a == b
    decreases |a|
  {
    if |a| > 0 {
      BelowAntisymmetric(a[1..], b[1..]);
      assert a == [a[0]] + a[1..] && b == [b[0]] + b[1..];
    }
  }

  lemma {:induction false} BelowTransitive(a: string, b: string, c: string)
    requires Below(a, b) && Below(b, c)
    ensures Below(a, c)
    decreases |a|
  {
    if |a| > 0 && a[0] == b[0] && b[0] == c[0] {
      BelowTransitive(a[1..], b[1..], c[1..]);
    }
  }
}

=== FILE: wrappers.dfy ===
/** The one failure-carrying type of the model: PHP's `false` (or `null`) return
    on a failed parse, clean or read becomes `None`. */
module Wrappers {

  datatype Option<+T> = None | Some(value: T) {

    predicate IsFailure() {
      None?
    }

    function PropagateFailure<U>(): Option<U>
      requires None?
    {
      None
    }

    function Extract(): T
      requires Some?
    {
      value
    }

    /** The value, or `default` when absent (PHP reads a missing array key as null). */
    function GetOr(default: T): T {
      if Some? then value else default
    }
  }
}
